=== FILE: README.md ===
# SAGE memory core in Dafny

This project models the memory core of SAGE, a smart-home assistant. It covers five parts:

- **The memory bank** (`MemoryBank`) records each user's queries by date. It counts and flattens them, saves snapshots and reads histories back, builds vector indexes and searches them.
- **The vector-store builders** (`VectorDb`) handle Chroma and FAISS stores: per-user or shared, built or reopened.
- **The shared-memory registry** (`MemoryRegistry`) does three things:
  - turns device and presence records into sentences;
  - caches those sentences as line-delimited instruction files;
  - at start-up, loads the user-preference, device and environment banks.
- **`findall`** (`Common`).
- **The test-case register** of the evaluation harness (`TestCases`), together with the location listener's sentence (`LocationListener`).

Python values are a `Json` datatype. A `dict` is an insertion-ordered association list (`Assoc`, `PyJson`). Each Python exception class is an `Error` value, and every operation that can raise returns a `Result` (`Results`).

Everything the core touches outside its own values is a parameter:

- **The filesystem** is `FileSystem.Fs`. It holds directories, files with their text, and persisted vector indexes. Opening a file and creating a directory raise NotADirectoryError when an ancestor of the path is a regular file (`FileSystem.UnderFile`).
- **The JSON codec** is `PyJson.Codec`. Its lawfulness is the ghost predicate `LawfulCodec`: an encoded value is one line, and decoding undoes encoding for every value in which no object repeats a key (`PyJson.DistinctKeys`). A Python dict never repeats a key; for a model value that does, `json.loads` would keep only the last occurrence, so no round trip is demanded.
- **The similarity search** is `MemoryBank.Similarity`.
- **The two HTTP fetches** are the values they returned.

The bank is a value. Each operation returns the bank and filesystem it leaves behind.

Two quirks of the code are modelled as written and their consequences are proved:

- **Swapped arguments in `create_indexes`.** It passes the index name where the documents belong. So `create_indexes` succeeds only on an empty dict history (`CreateIndexesOnlyOnEmpty`), and `init_shared_memory` always raises (`InitSharedMemoryFails`).
- **`contains` compares the wrong thing.** It compares the memory with each date's whole list. So it never finds a stored query (`ContainsNeverMatchesLists`, `ContainsMissesAddedQuery`).

Five more behaviours of the code are modelled as written:

- **Snapshot counter.** `save_snapshot` increments the counter only after the file was written. So a snapshot that could not be written leaves its number to the next attempt.
- **Search errors.** A search whose user or vectorstore has no index raises `ValueError`.
- **Bad lines.** `read_from_json` skips a line it cannot decode. The messages it prints about the line are not modelled.
- **The location listener cannot be imported.** `location_listener.py` calls `init_shared_memory()` at import time (line 7), and that call always raises (`InitSharedMemoryFails`). So importing the listener fails before `human_location_to_nl` can be used.
- **The listener's docstring does not match its code.** The docstring (lines 11-15) describes keys `name`, `location` and `floor` and the sentence "User mmhu is currently located at floor 3 in Shanghai.". The code (lines 16-18) reads `personName` and `spaceId` and says "is currently located in <space>.". The model follows the code.

## Model

| member | source | states |
|---|---|---|
| MemoryBank.AppendToEntry | sage/retrieval/memory_bank.py:78-84 | the user's list for the date becomes the old list (or nothing) followed by the query, and every other date of the user is untouched. An entry whose `history` is missing or None is replaced by one holding only the new query, so its other keys are dropped; otherwise every key other than `history` keeps its value |
| MemoryBank.AddQuery | sage/retrieval/memory_bank.py:75-84 | the error cases are exact. A non-dict history raises TypeError. A missing user raises KeyError unless the history is still the constructor's defaultdict. An entry, `history` or date value that cannot be appended to raises AttributeError. On success the date's queries are the earlier ones plus the new query, and other users and other dates are unchanged. A missing user, or one whose `history` is missing or None, ends up with an entry holding only the new query; any other entry keeps all its keys except `history`. The indexes and counter are kept |
| MemoryBank.AppendToEntryCounts | sage/retrieval/memory_bank.py:78-84 | appending to a well-formed or fresh entry is possible, keeps the entry well-formed and adds exactly one query |
| MemoryBank.AddQueryKeepsWellFormed | sage/retrieval/memory_bank.py:75-84 | on a well-formed history, `add_query` for a present user (or any user of a defaultdict) succeeds and keeps the history well-formed |
| MemoryBank.AddQueryLen | sage/retrieval/memory_bank.py:248-262 | after one `add_query` on a well-formed history, `len` is one more than before |
| MemoryBank.AddQueriesLen | sage/retrieval/memory_bank.py:248-262 | adding n queries in a row succeeds, keeps the history well-formed, and makes `len` grow by n |
| MemoryBank.AddQueriesAppend | sage/retrieval/memory_bank.py:75-84 | queries added one after another are stored in that order, after the ones already there |
| MemoryBank.Len | sage/retrieval/memory_bank.py:248-262 | `len` is the number of items for a list history, 0 for an empty dict or a history that is neither a dict nor a list |
| MemoryBank.LenWellFormed | sage/retrieval/memory_bank.py:251-257 | for a well-formed dict history, `len` is the sum over users of the number of queries stored under all their dates |
| MemoryBank.SumLensExtendAll | sage/retrieval/memory_bank.py:254-255 | summing the lengths of a dict's values and flattening them fail together, and the sum is the flattened length |
| MemoryBank.PrepareForVectorDb | sage/retrieval/memory_bank.py:144-167 | a dict history becomes a dict with the same users in the same order. Each user is mapped to the texts of that user's dates, flattened in order, with none for an entry without `history`. It succeeds exactly when every user's texts can be collected. A list history is returned unchanged; anything else raises ValueError with its type in the message |
| MemoryBank.UserTexts | sage/retrieval/memory_bank.py:153-156 | a user entry that is not a dict raises AttributeError, and one without `history` contributes no texts |
| MemoryBank.PrepareUsers | sage/retrieval/memory_bank.py:150-158 | every user, in order, is paired with that user's texts; the preparation succeeds exactly when every user's texts can be collected |
| MemoryBank.PreparedHoldsEveryQuery | sage/retrieval/memory_bank.py:153-158 | no query is lost: whatever a user's history holds under any date is among that user's prepared texts |
| MemoryBank.LenCountsPrepared | sage/retrieval/memory_bank.py:144-167 | for a dict or list history, `len` and `prepare_for_vector_db` fail together, and `len` counts exactly the texts prepared for the vector store |
| MemoryBank.Contains | sage/retrieval/memory_bank.py:234-246 | the result is true exactly when the user's `history` is a dict and some date of it holds the bare memory string itself. For a dict history, a missing user gives false, a user entry that is not a dict raises TypeError, one without `history` raises KeyError, and a `history` that is not a dict raises AttributeError. A history that is not a dict gives false when the user is not in it and raises TypeError otherwise |
| MemoryBank.ContainsNeverMatchesLists | sage/retrieval/memory_bank.py:240-246 | on a well-formed history, where every date holds a list, `contains` is always false |
| MemoryBank.ContainsMissesAddedQuery | sage/retrieval/memory_bank.py:234-246 | right after `add_query` stored a query under a date, `contains` does not find it |
| MemoryBank.SearchIndex | sage/retrieval/memory_bank.py:225 | only a single store can be searched; a per-user dict of stores raises AttributeError |
| MemoryBank.Search | sage/retrieval/memory_bank.py:216-233 | a user name takes precedence over a vectorstore name; an unknown name raises ValueError naming it; with neither there is ValueError; otherwise the selected index is searched |
| MemoryBank.SearchReturnsStoredTexts | sage/retrieval/memory_bank.py:216-233 | under a lawful similarity search, a successful search returns at most `top_k` texts, all from the one index it selected |
| MemoryBank.SnapshotNameInjective | sage/retrieval/memory_bank.py:136 | distinct counter values give distinct `snapshot_<id>.json` names |
| MemoryBank.SnapshotPath | sage/retrieval/memory_bank.py:133-136 | a path ending in `json` is used as is; otherwise the file is `snapshot_<id>.json` inside it |
| MemoryBank.SnapshotPathsDistinct | sage/retrieval/memory_bank.py:133-136 | snapshots into a directory with distinct counter values never share a path |
| MemoryBank.SaveSnapshot | sage/retrieval/memory_bank.py:130-142 | succeeds exactly when the file can be written; the file then holds the serialised history and the counter moves on by one; no other file, directory or index changes |
| FileSystem.WriteFile | sage/retrieval/memory_bank.py:140 | `open(path, "w")` succeeds exactly when no ancestor of the path is a regular file, the path is not a directory and its parent exists. An ancestor that is a regular file raises NotADirectoryError. Only the written file changes |
| FileSystem.WriteKeepsNotUnderFile | sage/retrieval/memory_bank.py:140 | writing a file puts no regular file above it, so the file can be opened again afterwards |
| FileSystem.ReadFile | sage/retrieval/memory_bank.py:108 | `open(path, "r")` succeeds exactly when the path is a file, is not a directory and has no regular file among its ancestors, and it then yields the file's text. An ancestor that is a regular file raises NotADirectoryError; the only other errors are IsADirectoryError and FileNotFoundError |
| MemoryBank.SnapshotsAccumulate | sage/retrieval/memory_bank.py:130-142 | two snapshots in a row into a directory keep both files, each with the history of its moment |
| MemoryBank.SnapshotReadBack | sage/retrieval/memory_bank.py:104-109 | with a lawful codec, a snapshot saved to a `memory_bank.json` path is read back by `read_from_json` as the history it saved (a history in which no object repeats a key, as every Python dict is) |
| MemoryBank.ParseLinesAppend | sage/retrieval/memory_bank.py:114-121 | line-delimited parsing works line by line: parsing two chunks of lines concatenates their values |
| MemoryBank.ReadFromJson | sage/retrieval/memory_bank.py:104-121 | a `memory_bank.json` path replaces the history with the decoded document, and changes nothing on failure. Any other path resets the history to a list, which afterwards holds the values of the decodable non-blank lines, and stays empty when the file cannot be read. Indexes and counter are kept |
| MemoryBank.ParseLinesCons | sage/retrieval/memory_bank.py:114-118 | a first line that strips to a decodable text contributes its value, and parsing goes on with the remaining lines |
| MemoryBank.StoreOf | sage/retrieval/memory_bank.py:203-205 | subscripting the builder's result by user succeeds exactly on a dict of stores holding that user |
| MemoryBank.IndexUser | sage/retrieval/memory_bank.py:183-206 | one turn of the per-user loop fails only with KeyError, TypeError, AttributeError or the builder's ValueError |
| MemoryBank.IndexUsers | sage/retrieval/memory_bank.py:183-206 | the per-user loop over no users changes nothing, and fails only with the errors of its turns |
| MemoryBank.IndexUsersFails | sage/retrieval/memory_bank.py:200-205 | because the index name is passed as the documents, the per-user loop fails for any non-empty set of users |
| MemoryBank.CreateIndexes | sage/retrieval/memory_bank.py:169-214 | a per-user history goes to the per-user loop; otherwise a failure of `prepare_for_vector_db` is passed on |
| MemoryBank.CreateIndexesOnlyOnEmpty | sage/retrieval/memory_bank.py:169-214 | `create_indexes` succeeds if and only if the history is an empty dict, and then changes nothing; whenever the texts could be prepared, the error is the builder's ValueError |
| MemoryBank.AddQueryThenCreateIndexesFails | sage/retrieval/memory_bank.py:169-214 | a bank that has recorded a query cannot build its indexes |
| VectorDb.AddToChroma | sage/retrieval/vectordb.py:107-112 | building from texts adds them to what is persisted at the directory, which then exists; files are unchanged |
| VectorDb.BuildChromaDb | sage/retrieval/vectordb.py:16-35 | an existing directory is reopened unchanged when `load` holds; with `load` false it is wiped first and then holds exactly the documents; otherwise the documents are added. Outside the directory no directory, file or index appears, disappears or changes, and no file anywhere changes its content |
| VectorDb.ChromaRebuildThenReopen | sage/retrieval/vectordb.py:16-35 | reopening a store that was just rebuilt returns the same store and changes nothing |
| VectorDb.UnlinkGlob | sage/retrieval/vectordb.py:52-57 | unlinking `sage-index.*` fails on a matching directory; otherwise exactly the matching files go, together with the index they make up |
| VectorDb.BuildFaissDb | sage/retrieval/vectordb.py:38-63 | a load reads the fixed `smartie-index` folder, and raises when nothing is there. A build needs documents, removes old `sage-index.*` files when `load` is false, and saves the documents under `vector_dir/sage-index` |
| VectorDb.FaissLoadIgnoresBuiltIndex | sage/retrieval/vectordb.py:46-61 | a load after a build does not return the index the build saved |
| VectorDb.PathPart | sage/retrieval/vectordb.py:78 | path joining accepts strings only (TypeError otherwise) |
| VectorDb.UserStore | sage/retrieval/vectordb.py:80-91 | a user's store is opened unchanged when loading, and otherwise built from the user's iterable memories |
| VectorDb.PerUserIndexes | sage/retrieval/vectordb.py:73-95 | one store per user, in the dict's order and under the same names; errors are TypeError; loading succeeds exactly when there are no users or the db name is a string, and never changes the filesystem |
| VectorDb.PerUserBuildSucceeds | sage/retrieval/vectordb.py:77-91 | building succeeds exactly when every user's memories can be iterated by `Chroma.from_texts` |
| VectorDb.PerUserBuildAllIterable | sage/retrieval/vectordb.py:77-91 | the build loop succeeds exactly when it gets through every user, front to back, without a memory list that cannot be iterated |
| VectorDb.PerUserBuildContents | sage/retrieval/vectordb.py:77-93 | when no two users share a directory, each user's built store holds what was persisted at `<vectorstore path>/<user>/<db name>` followed by that user's memories |
| VectorDb.PerUserLocations | sage/retrieval/vectordb.py:77-93 | each user's store persists at `<vectorstore path>/<user>/<db name>` |
| VectorDb.CreateMultiuserVectorIndexes | sage/retrieval/vectordb.py:69-117 | ValueError is raised if and only if the documents are neither a dict nor a list. A dict gives one store per user under the same keys. A list gives one store at `<vectorstore path>/<db name>`: when built it holds the persisted texts plus the documents, and when loaded it is the collection persisted there, with the filesystem unchanged |
| VectorDb.MultiuserBuildSucceeds | sage/retrieval/vectordb.py:73-95 | building from a dict succeeds exactly when every user's memories can be iterated |
| VectorDb.MultiuserBuildContents | sage/retrieval/vectordb.py:73-95 | building from a dict where no two users share a directory, each user's store holds what was persisted in that user's directory followed by that user's memories |
| VectorDb.SharedBuildThenLoad | sage/retrieval/vectordb.py:97-114 | a shared store built from a list is exactly what reopening it returns |
| MemoryRegistry.Field | sage/chroma_registry/memory_registry.py:37 | `d.get(k, default)` inside an f-string gives the default for a missing key and a string value as itself |
| MemoryRegistry.FunctionLine | sage/chroma_registry/memory_registry.py:40-44 | a function's sentence exists if and only if the function is a dict. It starts with `- The functionName '`, ends with a full stop, and gives the name (default `Unnamed`), the id (default `N/A`), then the URL clause and the parameters clause |
| MemoryRegistry.UrlClause | sage/chroma_registry/memory_registry.py:42 | the URL is mentioned if and only if `functionUrl` is present and truthy |
| MemoryRegistry.ParamsClause | sage/chroma_registry/memory_registry.py:43-44 | the parameters are mentioned if and only if `functionParams` is present and truthy |
| MemoryRegistry.FunctionLineNamesFunction | sage/chroma_registry/memory_registry.py:40 | the function's name (or `Unnamed`) can be read back from its sentence, up to the next quote, when it holds no quote |
| MemoryRegistry.QuotedNameReadBack | sage/chroma_registry/memory_registry.py:40 | in a sentence with a quote-free name between a prefix and a quote, the text after the prefix up to the next quote is the name |
| MemoryRegistry.FunctionLines | sage/chroma_registry/memory_registry.py:39-45 | one sentence per function, in order, succeeding if and only if every function is a dict |
| MemoryRegistry.DeviceHead | sage/chroma_registry/memory_registry.py:37-38 | a device description starts with `In space ` and gives the space id (default `N/A`), the device name (default `unknown`) and the device id (default `N/A`), then the header of the function list |
| MemoryRegistry.DeviceHeadMentions | sage/chroma_registry/memory_registry.py:37 | a device description mentions the device's space, name and id |
| MemoryRegistry.DeviceSentence | sage/chroma_registry/memory_registry.py:35-49 | a non-dict device raises AttributeError; a dict device is described if and only if its functions can be iterated and are all dicts |
| MemoryRegistry.DeviceSentenceListsFunctions | sage/chroma_registry/memory_registry.py:35-49 | a device's description contains the sentence of every one of its functions |
| MemoryRegistry.PresenceText | sage/chroma_registry/memory_registry.py:52 | the full sentence: `Person '`, the name, `' is currently located in space `, the space id and a full stop |
| MemoryRegistry.EnvSentence | sage/chroma_registry/memory_registry.py:50-54 | a presence record is described if and only if it is a dict, and then by the presence sentence of its `personName` (default `unknown`) and `spaceId` (default `N/A`) |
| MemoryRegistry.PresenceTextNamesPerson | sage/chroma_registry/memory_registry.py:52 | the person's name can be read back from the sentence, up to the next quote, when it holds no quote |
| MemoryRegistry.EnvSentenceNamesPerson | sage/chroma_registry/memory_registry.py:50-54 | the person named in a record (or `unknown`) can be read back from its sentence |
| MemoryRegistry.Sentences | sage/chroma_registry/memory_registry.py:33-56 | one text per record, in order, succeeding if and only if every record converts |
| MemoryRegistry.ConvertToNaturalLanguage | sage/chroma_registry/memory_registry.py:33-56 | the data is iterated and each item converted according to the source, in order; it fails if and only if iteration or some conversion fails |
| MemoryRegistry.InstructionLines | sage/chroma_registry/memory_registry.py:64-65 | each sentence is written as its own `{"instruction": …}` record, serialised without ASCII escaping |
| MemoryRegistry.EnsureJsonFile | sage/chroma_registry/memory_registry.py:59-65 | falsy data changes nothing. Otherwise it succeeds exactly when the parent can be created, the file opened and the data converted; neither can happen below a regular file, and the file then holds one record line per sentence. A failed conversion leaves the emptied file behind |
| FileSystem.MakeDirs | sage/chroma_registry/memory_registry.py:62 | `os.makedirs(d, exist_ok=True)` succeeds exactly when `d` is non-empty, not a regular file and below no regular file, and then adds the directory. A path below a regular file raises NotADirectoryError |
| MemoryRegistry.EnsureJsonFileReadable | sage/chroma_registry/memory_registry.py:59-65 | after `ensure_json_file` succeeded with truthy data, opening the file for reading succeeds and yields the instruction records it wrote |
| MemoryRegistry.Instructions | sage/chroma_registry/memory_registry.py:91 | the extraction succeeds if and only if every item is a dict or fails the `in` test; a list or string that passes it, or a number, boolean or None, raises TypeError. It then yields the `instruction` values of the dicts that have one, in order |
| MemoryRegistry.InstructionsOfMembers | sage/chroma_registry/memory_registry.py:91 | a value is extracted if and only if some record holds it as its `instruction` |
| MemoryRegistry.ExtractInstructions | sage/chroma_registry/memory_registry.py:90-91 | an empty list raises IndexError. A list whose first item is not a dict, and anything that is not a list, is left as it is. A list whose first item is a dict is replaced by the extracted instructions, and the step fails exactly when the extraction does |
| MemoryRegistry.ParseInstructionLines | sage/chroma_registry/memory_registry.py:63-65 | when each record line is framed and decodes to its record, parsing the written lines gives back one record per sentence |
| MemoryRegistry.InstructionTextReadsBack | sage/retrieval/memory_bank.py:110-118 | a file of instruction record lines that each read back is loaded by `read_from_json` as those records, in order |
| MemoryRegistry.InstructionsOfRecords | sage/chroma_registry/memory_registry.py:91 | extracting from instruction records gives back the sentences, in order |
| MemoryRegistry.InstructionFileRoundTrip | sage/chroma_registry/memory_registry.py:59-65 | what `ensure_json_file` writes, `read_from_json` and the extraction read back: the sentences, in order |
| MemoryRegistry.LoadProfiles | sage/chroma_registry/memory_registry.py:73-80 | a read error is passed on; a dict bank goes to `create_indexes` for `chroma_userprofile` without loading; any other bank is kept as read, without touching the filesystem |
| MemoryRegistry.LoadProfilesKeepsFs | sage/chroma_registry/memory_registry.py:73-80 | the user-preference step succeeds only on a bank that is not a dict or is an empty dict, and never changes the filesystem |
| MemoryRegistry.LoadShared | sage/chroma_registry/memory_registry.py:83-92 | a cache file that needs no fetch, or falsy fetched data, leaves the filesystem as it was; otherwise the file holds the fetched records when writing succeeded. The filesystem is returned even when a later step raises |
| MemoryRegistry.CachedFileIgnoresFetch | sage/chroma_registry/memory_registry.py:84-86 | a non-empty cached file is used whatever the fetch returned, and keeps its content |
| MemoryRegistry.FetchedDataIsRead | sage/chroma_registry/memory_registry.py:84-91 | a missing or empty cache file is replaced by the fetched records, whose sentences are what the bank then holds |
| MemoryRegistry.LoadSharedFails | sage/chroma_registry/memory_registry.py:83-92 | the device and environment steps never succeed, because `create_indexes` rejects every list |
| MemoryRegistry.InitSharedMemory | sage/chroma_registry/memory_registry.py:68-70 | a regular file in place of the data directory raises FileExistsError |
| MemoryRegistry.DeviceFileIsLineDelimited | sage/chroma_registry/memory_registry.py:83-89 | `device_info.json` is read as a line-delimited file |
| MemoryRegistry.InitSharedMemoryFails | sage/chroma_registry/memory_registry.py:68-110 | `init_shared_memory` always raises |
| Common.FindSpec | sage/utils/common.py:79 | `find` returns -1 if and only if the needle does not occur, and otherwise its leftmost occurrence |
| Common.ScanStep | sage/utils/common.py:79-84 | one iteration of the loop yields the next element of the greedy scan, or ends it |
| Common.Findall | sage/utils/common.py:73-84 | the loop returns the greedy scan of leftmost non-overlapping occurrences |
| Common.FindallStep | sage/utils/common.py:78-84 | one pass of the loop keeps the output a prefix of the greedy scan: with no occurrence left the output is the whole scan, otherwise the found position joins it and the scan goes on past the occurrence |
| Common.FindallSpec | sage/utils/common.py:73-84 | what `findall` returns: only occurrences, non-overlapping, empty if and only if the needle does not occur, none skipped between them |
| TestCases.InitialRegister | sage/testing/testcases.py:41-51 | the register starts with the nine categories, in order, each empty, with distinct keys |
| TestCases.RegisterTest | sage/testing/testcases.py:67-76 | registering keeps the categories and their order; its only error is KeyError |
| TestCases.RegisterTestOk | sage/testing/testcases.py:70-72 | registering succeeds if and only if every name is a category |
| TestCases.RegisterTestMembers | sage/testing/testcases.py:70-72 | a successful registration adds the test to exactly the named categories |
| TestCases.GetTestChallenges | sage/testing/testcases.py:54-64 | the result lists the names of exactly the categories whose set holds the test, in register order. Position k holds the name of the k-th such category |
| TestCases.HoldingFrom | sage/testing/testcases.py:60-62 | the positions of the categories holding the test are ascending, and none is missed |
| TestCases.ChallengesAreMembership | sage/testing/testcases.py:54-64 | with distinct keys, a category is listed if and only if it exists and holds the test |
| TestCases.RegisterThenChallenges | sage/testing/testcases.py:54-76 | after registering, a test's challenges are its earlier ones plus the names |
| TestCases.Combine | sage/testing/testcases.py:85-90 | a union or intersection succeeds if and only if every name is a category, and holds exactly the tests in any (or every) one of them together with the selection so far; another combination keeps the selection |
| TestCases.GetTests | sage/testing/testcases.py:79-92 | an empty list raises IndexError, an unknown first category KeyError; otherwise the first category is combined with the rest |
| TestCases.GetTestsUnion | sage/testing/testcases.py:79-92 | a union selects the tests filed under any of the categories |
| TestCases.GetTestsIntersection | sage/testing/testcases.py:79-92 | an intersection selects the tests filed under every one of the categories |
| TestCases.SwitchValue | sage/testing/testcases.py:101 | reading a device's switch can fail only with KeyError or TypeError |
| TestCases.CheckStatusOn | sage/testing/testcases.py:95-104 | the result is true if and only if some device is on and every device before it is readable and off. It is false if and only if every device is readable and off. It raises if and only if some device cannot be read and every device before it is off |
| TestCases.AllOffStopsAt | sage/testing/testcases.py:95-104 | once a device is unreadable or on, no longer prefix of the devices is all readable and off |
| LocationListener.HumanLocationToNl | sage/listener/location_listener.py:10-18 | a non-dict entry raises AttributeError. A dict gives the sentence for its person name (default `Unknown`) and its space id (default `an unknown spaceId`): it starts with `User ` and ends with the space and a full stop |
| LocationListener.LocationTextReadBack | sage/listener/location_listener.py:18 | the name and the location can be read back from the sentence at fixed offsets |
| LocationListener.HumanLocationReadBack | sage/listener/location_listener.py:16-18 | the person and the space of a presence record can be read back from the listener's sentence |
| LocationListener.ListenerAgreesWithRegistry | sage/listener/location_listener.py:16-18 | for a record with a space id, the listener's sentence and the registry's presence sentence both end with that space |

## Left out

- The HTTP fetches (`fetch_device_info_from_api`, `fetch_env_info_from_api`): network I/O. What they returned is a parameter. They turn any failure into an empty list, which `ensure_json_file` ignores.
- Embedding models, `load_embedding_model` and the `embedding_model` argument of `create_indexes`. Embeddings are floating-point computations in foreign libraries.
- MemoryBank.Search: the similarity ranking is a parameter. Only its lawfulness is assumed: at most `k` results, all texts of the store. "Most similar first" is not stated.
- `load`, `_load_user_queries`, `save` and `_build_user_profiles` of the memory bank: outside this core. They use directory globbing and the LLM-backed user profiler.
- The Kafka consumer loop of the location listener: network I/O. Only `human_location_to_nl` is modelled.
- `print` and `CONSOLE.log` output, including the warnings for undecodable lines.
- Floating-point JSON values. Integers are unbounded.
- Text.Strip: whitespace is what `str.isspace()` accepts up to code point 255: ASCII whitespace, the separators `\x1c`-`\x1f`, `\x85` and `\xa0`. Whitespace beyond that range is not modelled.
- Text.Lower: only ASCII letters are lowered. Other Unicode case mappings are not modelled.
- PyJson.Repr: string escaping inside `repr` is not modelled, so quotes and backslashes inside nested strings are shown bare.
- Text.SplitLines: splits at `\n` only. Python's universal newlines (`\r`, `\r\n`) are not modelled.
- FileSystem.MakeDirs: creates the one directory asked for. Missing parents are not created, and paths are compared without normalisation.
- MemoryRegistry.NeedsFetch: a directory is taken to have a non-zero `st_size`.
- Common.Findall: requires a non-empty needle. With an empty one the source never advances and loops forever, which a terminating model cannot express.
- TestCases.GetTests: returns a set. The order of `list(tests)` depends on hashing and is not modelled.
- MemoryRegistry.InitSharedMemory: its contract names only the FileExistsError case. That it always raises is stated by `InitSharedMemoryFails`. What the filesystem holds after it raises is not modelled.
- VectorDb.PerUserBuildContents: the contents are stated only when no two users' directories coincide. `os.path.join` makes them coincide in more than one way: a user name that is an absolute path replaces the vectorstore path, and a trailing slash gives the same directory as the name without it (`bob/` and `bob` both give `<vectorstore path>/bob/<db name>`). Then the later store also holds the earlier user's memories.
- PyJson.LawfulCodec: no round trip is demanded for a value in which an object repeats a key. Python never builds such a value, and `json.loads` would keep only the last occurrence.
- VectorDb.BuildFaissDb: FAISS serialisation is abstracted to one persisted index per `vector_dir/sage-index`.
- Test functions are compared by identity, as values of a type parameter. The individual test bodies of the harness are not modelled.

=== FILE: assoc.dfy ===
/** Insertion-ordered association lists keyed by strings: the model of a
    Python `dict` with string keys. Keys are distinct, as in a dict; looking
    a key up finds its entry, assigning a present key replaces its value in
    place and assigning an absent key appends it.
 */
module Assoc {
  import opened Results

  /** `k in d` for a dict. */
  predicate HasKey<V>(fields: seq<(string, V)>, k: string) {
    exists i :: 0 <= i < |fields| && fields[i].0 == k
  }

  /** A key is in a non-empty dict when it is the first key or in the rest. */
  lemma HasKeyCons<V>(fields: seq<(string, V)>, k: string)
    requires |fields| > 0
    ensures HasKey(fields, k) <==> fields[0].0 == k || HasKey(fields[1..], k)
  {
    if HasKey(fields, k) && fields[0].0 != k {
      var i :| 0 <= i < |fields| && fields[i].0 == k;
      assert fields[1..][i - 1].0 == k;
    }
    if HasKey(fields[1..], k) {
      var i :| 0 <= i < |fields[1..]| && fields[1..][i].0 == k;
      assert fields[i + 1].0 == k;
    }
  }

  /** `d.get(k)`: the value stored under `k`, if any. */
  function Lookup<V(==)>(fields: seq<(string, V)>, k: string): (r: Option<V>)
    ensures r.None? <==> !HasKey(fields, k)
    ensures r.Some? ==> exists i :: 0 <= i < |fields| && fields[i] == (k, r.value)
  {
    if |fields| == 0 then None
    else if fields[0].0 == k then Some(fields[0].1)
    else
      var r := Lookup(fields[1..], k);
      HasKeyCons(fields, k);
      if r.Some? then
        var i :| 0 <= i < |fields[1..]| && fields[1..][i] == (k, r.value);
        assert fields[i + 1] == (k, r.value);
        r
      else r
  }

  /** `d[k] = v`: replaces the value of a present key in place, appends an absent one. */
  function Assign<V(==)>(fields: seq<(string, V)>, k: string, v: V): (r: seq<(string, V)>)
    ensures Lookup(r, k) == Some(v)
    ensures forall k' :: k' != k ==> Lookup(r, k') == Lookup(fields, k')
    ensures HasKey(fields, k) ==> |r| == |fields|
    ensures HasKey(fields, k) ==> forall i :: 0 <= i < |r| ==> r[i].0 == fields[i].0
    ensures !HasKey(fields, k) ==> r == fields + [(k, v)]
  {
    if |fields| == 0 then [(k, v)]
    else if fields[0].0 == k then [(k, v)] + fields[1..]
    else
      var tail := Assign(fields[1..], k, v);
      HasKeyCons(fields, k);
      var r := [fields[0]] + tail;
      assert r[0] == fields[0] && r[1..] == tail;
      assert !HasKey(fields, k) ==> [fields[0]] + (fields[1..] + [(k, v)]) == fields + [(k, v)];
      r
  }

  /** After `d[k] = v` the keys are the old ones and `k`. */
  lemma AssignHasKey<V>(fields: seq<(string, V)>, k: string, v: V, k': string)
    ensures HasKey(Assign(fields, k, v), k') <==> k' == k || HasKey(fields, k')
  {
    assert Lookup(Assign(fields, k, v), k').None? <==> !HasKey(Assign(fields, k, v), k');
  }

  /** Assigning keeps a property every value has, when the new value has it too. */
  lemma {:induction false} AssignPreserves<V>(fields: seq<(string, V)>, k: string, v: V, p: V -> bool)
    requires forall i :: 0 <= i < |fields| ==> p(fields[i].1)
    requires p(v)
    ensures forall i :: 0 <= i < |Assign(fields, k, v)| ==> p(Assign(fields, k, v)[i].1)
  {
    var r := Assign(fields, k, v);
    if |fields| == 0 {
      assert r == [(k, v)];
    } else if fields[0].0 == k {
      assert r == [(k, v)] + fields[1..];
      forall i | 1 <= i < |r|
        ensures p(r[i].1)
      {
        assert r[i] == fields[i];
      }
    } else {
      AssignPreserves(fields[1..], k, v, p);
      var tail := Assign(fields[1..], k, v);
      assert r == [fields[0]] + tail;
      forall i | 1 <= i < |r|
        ensures p(r[i].1)
      {
        assert r[i] == tail[i - 1];
      }
    }
  }

  /** The sum of a weight over the values. */
  function SumBy<V>(fields: seq<(string, V)>, w: V -> int): int {
    if |fields| == 0 then 0 else w(fields[0].1) + SumBy(fields[1..], w)
  }

  /** Assigning a key changes the sum by the new value's weight, less the
      replaced value's weight when the key was present. */
  lemma {:induction false} SumByAssign<V>(fields: seq<(string, V)>, k: string, v: V, w: V -> int)
    ensures SumBy(Assign(fields, k, v), w)
            == SumBy(fields, w) - (if HasKey(fields, k) then w(Lookup(fields, k).value) else 0) + w(v)
  {
    if |fields| == 0 {
      assert Assign(fields, k, v) == [(k, v)];
    } else if fields[0].0 == k {
      assert Assign(fields, k, v)[1..] == fields[1..];
    } else {
      HasKeyCons(fields, k);
      SumByAssign(fields[1..], k, v, w);
      assert Assign(fields, k, v)[1..] == Assign(fields[1..], k, v);
    }
  }
}

=== FILE: common.dfy ===
/** `findall` from the utility module: every leftmost, non-overlapping
    occurrence of a needle in a text, found by repeated `str.find` on the
    remaining suffix.
 */
module Common {
  import opened Text

  /** `t.find(s, from)`: the first index at or after `from` where `s` occurs
      in `t`, or -1 when there is none. What it finds is stated by
      `FindFromSpec`. */
  function FindFrom(t: string, s: string, from: nat): (r: int)
    ensures r == -1 || (from <= r && r + |s| <= |t|)
    decreases |t| - from
  {
    if from + |s| > |t| then -1
    else if IsMatchAt(t, s, from) then from
    else FindFrom(t, s, from + 1)
  }

  /** No occurrence of `s` starts in `[lo, hi)`. */
  predicate NoMatchBetween(t: string, s: string, lo: int, hi: int) {
    forall j :: lo <= j < hi ==> !IsMatchAt(t, s, j)
  }

  /** `find` reports an occurrence, and there is none between `from` and what
      it reports (or anywhere from `from` on, when it reports -1). */
  lemma {:induction false} FindFromSpec(t: string, s: string, from: nat)
    ensures var r := FindFrom(t, s, from);
      && (r != -1 ==> IsMatchAt(t, s, r))
      && (r != -1 ==> NoMatchBetween(t, s, from, r))
      && (r == -1 ==> NoMatchBetween(t, s, from, |t| + 1))
    decreases |t| - from
  {
    if from + |s| <= |t| && !IsMatchAt(t, s, from) {
      FindFromSpec(t, s, from + 1);
    }
  }

  /** `t.find(s)` */
  function Find(t: string, s: string): (r: int)
    ensures r == -1 || (0 <= r && r + |s| <= |t|)
  {
    FindFrom(t, s, 0)
  }

  /** `t.find(s)` is -1 exactly when `s in t` is false, and otherwise the
      leftmost occurrence. */
  lemma FindSpec(t: string, s: string)
    ensures Find(t, s) == -1 <==> !Occurs(t, s)
    ensures Find(t, s) != -1 ==> IsMatchAt(t, s, Find(t, s)) && NoMatchBetween(t, s, 0, Find(t, s))
  {
    FindFromSpec(t, s, 0);
    var r := Find(t, s);
    if r == -1 {
      assert forall i :: 0 <= i <= |t| ==> !IsMatchAt(t, s, i);
    } else {
      assert IsMatchAt(t, s, r);
    }
  }

  /** Reference definition of the greedy scan: the first occurrence at or
      after `from`, then the greedy scan resumed just past that occurrence. */
  function GreedyFrom(t: string, s: string, from: nat): (r: seq<nat>)
    requires |s| > 0 && from <= |t|
    ensures forall i :: 0 <= i < |r| ==> from <= r[i] && r[i] + |s| <= |t|
    decreases |t| - from
  {
    var p := FindFrom(t, s, from);
    if p == -1 then [] else [p as nat] + GreedyFrom(t, s, p + |s|)
  }

  /** Every position in `r` is an occurrence of `s` in `t`. */
  predicate AllOccurrences(t: string, s: string, r: seq<nat>) {
    forall i :: 0 <= i < |r| ==> IsMatchAt(t, s, r[i])
  }

  /** The positions in `r` increase and the occurrences there do not overlap. */
  predicate Disjoint(s: string, r: seq<nat>) {
    forall i, j :: 0 <= i < j < |r| ==> r[i] + |s| <= r[j]
  }

  /** No occurrence at or after `from` is missing from `r`: none before its
      first position, none between the end of one occurrence and the start of
      the next, and none after the end of the last. */
  predicate NoneSkipped(t: string, s: string, from: int, r: seq<nat>)
    decreases |r|
  {
    if |r| == 0 then NoMatchBetween(t, s, from, |t| + 1)
    else NoMatchBetween(t, s, from, r[0]) && NoneSkipped(t, s, r[0] + |s|, r[1..])
  }

  /** Every position the greedy scan reports is an occurrence. */
  lemma {:induction false} GreedyMatches(t: string, s: string, from: nat)
    requires |s| > 0 && from <= |t|
    ensures AllOccurrences(t, s, GreedyFrom(t, s, from))
    decreases |t| - from
  {
    var p := FindFrom(t, s, from);
    FindFromSpec(t, s, from);
    if p != -1 {
      var rest := GreedyFrom(t, s, p + |s|);
      GreedyMatches(t, s, p + |s|);
      var r := GreedyFrom(t, s, from);
      assert r == [p as nat] + rest;
      forall i | 0 <= i < |r|
        ensures IsMatchAt(t, s, r[i])
      {
        if i > 0 {
          assert r[i] == rest[i - 1];
        }
      }
    }
  }

  /** The reported occurrences are increasing and do not overlap. */
  lemma {:induction false} GreedyDisjoint(t: string, s: string, from: nat)
    requires |s| > 0 && from <= |t|
    ensures Disjoint(s, GreedyFrom(t, s, from))
    decreases |t| - from
  {
    var p := FindFrom(t, s, from);
    if p != -1 {
      var rest := GreedyFrom(t, s, p + |s|);
      GreedyDisjoint(t, s, p + |s|);
      var r := GreedyFrom(t, s, from);
      assert r == [p as nat] + rest;
      forall i, j | 0 <= i < j < |r|
        ensures r[i] + |s| <= r[j]
      {
        assert r[j] == rest[j - 1];
        if i > 0 {
          assert r[i] == rest[i - 1];
        }
      }
    }
  }

  /** The greedy scan is empty exactly when no occurrence starts at or after `from`. */
  lemma GreedyEmpty(t: string, s: string, from: nat)
    requires |s| > 0 && from <= |t|
    ensures GreedyFrom(t, s, from) == [] <==> NoMatchBetween(t, s, from, |t| + 1)
  {
    FindFromSpec(t, s, from);
    var p := FindFrom(t, s, from);
    if p != -1 {
      assert IsMatchAt(t, s, p);
    }
  }

  /** No occurrence is skipped by the greedy scan. */
  lemma {:induction false} GreedyComplete(t: string, s: string, from: nat)
    requires |s| > 0 && from <= |t|
    ensures NoneSkipped(t, s, from, GreedyFrom(t, s, from))
    decreases |t| - from
  {
    var p := FindFrom(t, s, from);
    FindFromSpec(t, s, from);
    if p != -1 {
      var rest := GreedyFrom(t, s, p + |s|);
      GreedyComplete(t, s, p + |s|);
      var r := GreedyFrom(t, s, from);
      assert r[1..] == rest;
    }
  }

  /** An occurrence in a suffix is an occurrence in the whole text, shifted by
      the suffix's start, and conversely. */
  lemma SuffixMatches(t: string, s: string, start: nat)
    requires start <= |t|
    ensures forall i :: 0 <= i ==> (IsMatchAt(t[start..], s, i) <==> IsMatchAt(t, s, start + i))
  {
    var u := t[start..];
    forall i | 0 <= i
      ensures IsMatchAt(u, s, i) <==> IsMatchAt(t, s, start + i)
    {
      if i + |s| <= |u| {
        assert u[i..i + |s|] == t[start + i..start + i + |s|];
      }
    }
  }

  /** Searching a suffix finds what searching the whole text from the suffix's start finds. */
  lemma FindInSuffix(t: string, s: string, start: nat)
    requires start <= |t|
    ensures Find(t[start..], s) == -1 ==> FindFrom(t, s, start) == -1
    ensures Find(t[start..], s) != -1 ==> FindFrom(t, s, start) == start + Find(t[start..], s)
  {
    var u := t[start..];
    SuffixMatches(t, s, start);
    FindFromSpec(u, s, 0);
    FindFromSpec(t, s, start);
    var f := Find(u, s);
    var g := FindFrom(t, s, start);
    assert f != -1 ==> IsMatchAt(t, s, start + f);
    assert g != -1 ==> IsMatchAt(u, s, g - start);
  }

  /** One iteration of `findall`: what `find` on the remaining suffix reports
      decides the next element of the greedy scan. */
  lemma ScanStep(t: string, s: string, start: nat, idx: int)
    requires |s| > 0 && start <= |t| && idx == Find(t[start..], s)
    ensures idx == -1 ==> GreedyFrom(t, s, start) == []
    ensures idx != -1 ==> GreedyFrom(t, s, start) == [start + idx] + GreedyFrom(t, s, start + idx + |s|)
  {
    FindInSuffix(t, s, start);
  }

  /** The loop invariant of `findall` survives one iteration: either the scan
      is finished, or the found position joins the output and the scan goes on
      past the occurrence. */
  lemma FindallStep(t: string, s: string, start: nat, out: seq<nat>, idx: int)
    requires |s| > 0 && start <= |t| && idx == Find(t[start..], s)
    requires out + GreedyFrom(t, s, start) == GreedyFrom(t, s, 0)
    ensures idx == -1 ==> out == GreedyFrom(t, s, 0)
    ensures idx != -1 ==> && 0 <= idx && start + idx + |s| <= |t|
                          && t[start..][idx + |s|..] == t[start + idx + |s|..]
                          && (out + [start + idx]) + GreedyFrom(t, s, start + idx + |s|) == GreedyFrom(t, s, 0)
  {
    ScanStep(t, s, start, idx);
    if idx == -1 {
      assert out + [] == out;
    } else {
      var g := GreedyFrom(t, s, start + idx + |s|);
      assert (out + [start + idx]) + g == out + ([start + idx] + g);
    }
  }

  /** `findall(long_string, short_string)`: repeatedly finds the needle in the
      remaining suffix, records its absolute position and drops everything up to
      the end of that occurrence. With an empty needle the source never advances,
      hence the precondition. */
  method Findall(longString: string, shortString: string) returns (out: seq<nat>)
    requires |shortString| > 0
    ensures out == GreedyFrom(longString, shortString, 0)
  {
    out := [];
    var rest := longString;
    var idxStart: nat := 0;
    assert out + GreedyFrom(longString, shortString, 0) == GreedyFrom(longString, shortString, 0);
    while true
      invariant idxStart <= |longString| && rest == longString[idxStart..]
      invariant out + GreedyFrom(longString, shortString, idxStart) == GreedyFrom(longString, shortString, 0)
      decreases |rest|
    {
      var idx := Find(rest, shortString);
      FindallStep(longString, shortString, idxStart, out, idx);
      if idx == -1 {
        return;
      }
      out := out + [idxStart + idx];
      rest := rest[idx + |shortString|..];
      idxStart := idxStart + idx + |shortString|;
    }
  }

  /** What `findall` returns, stated without the scan: occurrences only,
      non-overlapping, empty exactly when the needle does not occur, and no
      occurrence skipped between the reported ones. */
  lemma FindallSpec(t: string, s: string)
    requires |s| > 0
    ensures AllOccurrences(t, s, GreedyFrom(t, s, 0))
    ensures Disjoint(s, GreedyFrom(t, s, 0))
    ensures GreedyFrom(t, s, 0) == [] <==> !Occurs(t, s)
    ensures NoneSkipped(t, s, 0, GreedyFrom(t, s, 0))
  {
    GreedyMatches(t, s, 0);
    GreedyDisjoint(t, s, 0);
    GreedyEmpty(t, s, 0);
    GreedyComplete(t, s, 0);
  }
}

=== FILE: filesystem.dfy ===
/** The part of the filesystem the core observes, as a value: which
    directories exist, which regular files exist with what text, and what
    each persisted vector index holds. Paths are POSIX strings, compared
    without normalisation.
 */
module FileSystem {
  import opened Results
  import opened Text
  import opened PyJson

  /** `indexes` maps the key of a persisted vector index (its persist
      directory for Chroma, folder plus index name for FAISS) to the texts it
      holds. */
  datatype Fs = Fs(dirs: set<string>, files: map<string, string>, indexes: map<string, seq<Json>>)

  /** `os.path.join(a, b)`: an absolute `b` replaces `a`; otherwise one `/` separates them. */
  function PathJoin(a: string, b: string): (r: string)
    ensures EndsWith(r, b)
    ensures !StartsWith(b, "/") && a != "" && !EndsWith(a, "/") ==> StartsWith(r, a + "/")
  {
    if StartsWith(b, "/") then b
    else if a == "" || EndsWith(a, "/") then a + b
    else
      assert (a + "/" + b)[..|a| + 1] == a + "/";
      a + "/" + b
  }

  /** Index just past the last `/` of `p`, or 0 when there is none. */
  function SlashEnd(p: string): (n: nat)
    ensures n <= |p|
    ensures n > 0 ==> p[n - 1] == '/'
    ensures forall k :: n <= k < |p| ==> p[k] != '/'
  {
    if |p| == 0 then 0
    else if p[|p| - 1] == '/' then |p|
    else SlashEnd(p[..|p| - 1])
  }

  function RStripSlashes(h: string): (r: string)
    ensures |r| <= |h| && r == h[..|r|]
  {
    if |h| > 0 && h[|h| - 1] == '/' then RStripSlashes(h[..|h| - 1]) else h
  }

  /** `os.path.dirname(p)`: everything before the last `/`, with trailing
      slashes removed unless the head is made of slashes only. */
  function Dirname(p: string): (r: string)
    ensures |r| <= |p| && r == p[..|r|]
  {
    var head := p[..SlashEnd(p)];
    if head != "" && exists k :: 0 <= k < |head| && head[k] != '/' then RStripSlashes(head) else head
  }

  /** `p` is `d` itself or lies below it. */
  predicate Under(p: string, d: string) {
    p == d || StartsWith(p, d + "/")
  }

  /** `os.path.exists(p)` */
  predicate Exists(fs: Fs, p: string) {
    p in fs.dirs || p in fs.files
  }

  /** A proper ancestor of `p` is a regular file: resolving `p` then fails
      with ENOTDIR. */
  predicate UnderFile(fs: Fs, p: string) {
    exists f :: f in fs.files && StartsWith(p, f + "/")
  }

  /** Writing a file does not put anything above the file itself. */
  lemma WriteKeepsNotUnderFile(fs: Fs, p: string, content: string)
    requires !UnderFile(fs, p)
    ensures !UnderFile(fs.(files := fs.files[p := content]), p)
  {
    var files := fs.files[p := content];
    forall f | f in files
      ensures !StartsWith(p, f + "/")
    {
      if f == p {
        assert |f + "/"| > |p|;
      }
    }
  }

  /** `open(p).read()` */
  function ReadFile(fs: Fs, p: string): (r: Result<string>)
    ensures r.Ok? <==> p in fs.files && p !in fs.dirs && !UnderFile(fs, p)
    ensures r.Ok? ==> r.value == fs.files[p]
    ensures UnderFile(fs, p) ==> r == Err(NotADirectoryError)
    ensures r.Err? ==> r.error in {NotADirectoryError, IsADirectoryError, FileNotFoundError}
  {
    if UnderFile(fs, p) then Err(NotADirectoryError)
    else if p in fs.dirs then Err(IsADirectoryError)
    else if p in fs.files then Ok(fs.files[p])
    else Err(FileNotFoundError)
  }

  /** Writing `content` to `p` through `open(p, "w")`: no ancestor may be a
      regular file, the parent directory must exist and `p` must not be a
      directory. */
  function WriteFile(fs: Fs, p: string, content: string): (r: Result<Fs>)
    ensures r.Ok? <==> !UnderFile(fs, p) && p !in fs.dirs && (Dirname(p) == "" || Dirname(p) in fs.dirs)
    ensures r.Ok? ==> r.value.files == fs.files[p := content]
    ensures r.Ok? ==> r.value.dirs == fs.dirs && r.value.indexes == fs.indexes
    ensures UnderFile(fs, p) ==> r == Err(NotADirectoryError)
  {
    if UnderFile(fs, p) then Err(NotADirectoryError)
    else if p in fs.dirs then Err(IsADirectoryError)
    else if Dirname(p) != "" && Dirname(p) !in fs.dirs then Err(FileNotFoundError)
    else Ok(fs.(files := fs.files[p := content]))
  }

  /** `os.makedirs(d, exist_ok=True)`: an existing regular file at `d` raises
      FileExistsError, one above `d` NotADirectoryError. */
  function MakeDirs(fs: Fs, d: string): (r: Result<Fs>)
    ensures r.Ok? <==> d != "" && d !in fs.files && !UnderFile(fs, d)
    ensures r.Ok? ==> r.value == fs.(dirs := fs.dirs + {d})
    ensures d != "" && d !in fs.files && UnderFile(fs, d) ==> r == Err(NotADirectoryError)
  {
    if d == "" then Err(FileNotFoundError)
    else if d in fs.files then Err(FileExistsError)
    else if UnderFile(fs, d) then Err(NotADirectoryError)
    else Ok(fs.(dirs := fs.dirs + {d}))
  }

  /** `shutil.rmtree(d)`: `d` and everything below it disappear; nothing else changes. */
  function RmTree(fs: Fs, d: string): (r: Fs)
    ensures forall p :: p in r.dirs <==> p in fs.dirs && !Under(p, d)
    ensures forall p :: p in r.files <==> p in fs.files && !Under(p, d)
    ensures forall p :: p in r.files ==> r.files[p] == fs.files[p]
    ensures forall p :: p in r.indexes <==> p in fs.indexes && !Under(p, d)
    ensures forall p :: p in r.indexes ==> r.indexes[p] == fs.indexes[p]
  {
    Fs(set p | p in fs.dirs && !Under(p, d),
       map p | p in fs.files && !Under(p, d) :: fs.files[p],
       map p | p in fs.indexes && !Under(p, d) :: fs.indexes[p])
  }
}

=== FILE: location_listener.dfy ===
/** The location listener's sentence for a presence update. The Kafka
    consumer loop around it is not modelled.
 */
module LocationListener {
  import opened Results
  import opened Text
  import opened Assoc
  import opened PyJson
  import opened MemoryRegistry

  const UserPrefix: string := "User "
  const LocatedIn: string := " is currently located in "

  /** The sentence for a name and a location, both already rendered. */
  function LocationText(name: string, location: string): (r: string)
    ensures StartsWith(r, UserPrefix) && EndsWith(r, location + ".")
  {
    StartsWithConcat(UserPrefix, name + LocatedIn + location + ".");
    EndsWithConcat(UserPrefix + name + LocatedIn, location + ".");
    assert UserPrefix + (name + LocatedIn + location + ".") == UserPrefix + name + LocatedIn + (location + ".");
    UserPrefix + name + LocatedIn + (location + ".")
  }

  /** `human_location_to_nl(entry)`: who is where, with `Unknown` for a
      missing name and `an unknown spaceId` for a missing space. An entry
      that is not a dict has no `get`. */
  function HumanLocationToNl(entry: Json): (r: Result<string>)
    ensures !entry.JObj? ==> r == Err(AttributeError)
    ensures entry.JObj? ==> r.Ok? && StartsWith(r.value, UserPrefix)
    ensures entry.JObj? ==> EndsWith(r.value, Field(entry.fields, "spaceId", "an unknown spaceId") + ".")
    ensures entry.JObj? ==> r.value == LocationText(Field(entry.fields, "personName", "Unknown"),
                                                    Field(entry.fields, "spaceId", "an unknown spaceId"))
  {
    if !entry.JObj? then Err(AttributeError)
    else Ok(LocationText(Field(entry.fields, "personName", "Unknown"), Field(entry.fields, "spaceId", "an unknown spaceId")))
  }

  /** The location can be read back from the sentence: it is what follows the
      name and ` is currently located in `, without the final full stop. */
  lemma LocationTextReadBack(name: string, location: string)
    ensures var s := LocationText(name, location);
      s[|UserPrefix| + |name| + |LocatedIn|..|s| - 1] == location
      && s[|UserPrefix|..|UserPrefix| + |name|] == name
  {
    var s := LocationText(name, location);
    assert s == UserPrefix + name + LocatedIn + location + ".";
  }

  /** The person and the space of a presence record can be read back from
      the listener's sentence at fixed positions. */
  lemma HumanLocationReadBack(entry: Json)
    requires entry.JObj?
    ensures var s := HumanLocationToNl(entry).value;
      var name := Field(entry.fields, "personName", "Unknown");
      && s[|UserPrefix|..|UserPrefix| + |name|] == name
      && s[|UserPrefix| + |name| + |LocatedIn|..|s| - 1] == Field(entry.fields, "spaceId", "an unknown spaceId")
  {
    LocationTextReadBack(Field(entry.fields, "personName", "Unknown"), Field(entry.fields, "spaceId", "an unknown spaceId"));
  }

  /** The listener and the registry describe a presence record with the same
      space, whenever the record names one: both sentences end with it and a
      full stop. */
  lemma ListenerAgreesWithRegistry(entry: Json)
    requires entry.JObj? && HasKey(entry.fields, "spaceId")
    ensures var space := Field(entry.fields, "spaceId", "N/A");
      && EndsWith(HumanLocationToNl(entry).value, space + ".")
      && EndsWith(EnvSentence(entry).value, space + ".")
  {
    assert Field(entry.fields, "spaceId", "an unknown spaceId") == Field(entry.fields, "spaceId", "N/A");
  }
}

=== FILE: memory_bank.dfy ===
/** The memory bank: interaction history per user and date, or a flat list
    of device and environment descriptions, plus the vector indexes built
    from it and a snapshot counter.

    A user-preference history is a dict `user -> {"history": {date: [query, ...]}, ...}`;
    a device or environment history is a list. The bank is a value here;
    each operation returns the bank (and filesystem) it leaves behind.
 */
module MemoryBank {
  import opened Results
  import opened Text
  import opened Assoc
  import opened PyJson
  import opened FileSystem
  import opened VectorDb

  /** `history` is `self.history`. `autoVivify` holds while the history is
      still the constructor's `defaultdict(dict)`, where reading a missing
      user inserts an empty dict; any history read from a file is a plain
      value. `indexes` is `self.indexes`, `snapshotId` is `self.snapshot_id`. */
  datatype Bank = Bank(history: Json, autoVivify: bool, indexes: seq<(string, Indexed)>, snapshotId: nat)

  /** `MemoryBank()` */
  function NewBank(): Bank {
    Bank(JObj([]), true, [], 0)
  }

  /* ---------- reading a user's queries ---------- */

  /** The dict of dates of a user entry, when the entry and its `"history"`
      field are dicts. */
  function EntryDays(entry: Json): Option<Fields> {
    if entry.JObj? && HasKey(entry.fields, "history") then
      var days := Lookup(entry.fields, "history").value;
      if days.JObj? then Some(days.fields) else None
    else None
  }

  /** The queries of a user entry on `date`, when they are stored as a list. */
  function EntryQueries(entry: Json, date: string): Option<seq<Json>> {
    var days := EntryDays(entry);
    if days.Some? && HasKey(days.value, date) then
      var qs := Lookup(days.value, date).value;
      if qs.JArr? then Some(qs.items) else None
    else None
  }

  /** The entry of `user`, when the history is a dict holding one. */
  function EntryOf(history: Json, user: string): Option<Json> {
    if history.JObj? then Lookup(history.fields, user) else None
  }

  /** The dict of dates of `user`. */
  function DaysOf(history: Json, user: string): Option<Fields> {
    var entry := EntryOf(history, user);
    if entry.Some? then EntryDays(entry.value) else None
  }

  /** The queries of `user` on `date`, when they are stored as a list. */
  function QueriesOn(history: Json, user: string, date: string): Option<seq<Json>> {
    var entry := EntryOf(history, user);
    if entry.Some? then EntryQueries(entry.value, date) else None
  }

  /** The shape `add_query` builds and expects: a dict of users, each a dict
      whose `"history"` is a dict of dates, each date a list of queries. */
  predicate WellFormed(history: Json) {
    && history.JObj?
    && forall i :: 0 <= i < |history.fields| ==> WellFormedUser(history.fields[i].1)
  }

  predicate WellFormedUser(entry: Json) {
    && entry.JObj?
    && HasKey(entry.fields, "history")
    && var days := Lookup(entry.fields, "history").value;
       && days.JObj?
       && forall j :: 0 <= j < |days.fields| ==> days.fields[j].1.JArr?
  }

  /* ---------- add_query ---------- */

  /** Whether `add_query` can append under `date` to the entry of a present
      user: the entry is a dict, and either its `"history"` is missing or
      None (then it is replaced), or it is a dict whose value for `date` is
      missing, None or a list. */
  predicate CanAppend(entry: Json, date: string) {
    && entry.JObj?
    && var h := Lookup(entry.fields, "history").GetOr(JNull);
       || h == JNull
       || (&& h.JObj?
           && var cur := Lookup(h.fields, date).GetOr(JNull);
              cur == JNull || cur.JArr?)
  }

  /** The list of `date` with `query` appended, as `add_query` builds it. */
  function AppendedList(days: Fields, query: string, date: string): seq<Json> {
    var cur := Lookup(days, date).GetOr(JNull);
    if cur == JNull then [JStr(query)] else if cur.JArr? then cur.items + [JStr(query)] else [JStr(query)]
  }

  /** The entry `add_query` puts in place of one whose `"history"` is
      missing or None: nothing but the new query under `date`. */
  function FreshEntry(query: string, date: string): Json {
    JObj([("history", JObj([(date, JArr([JStr(query)]))]))])
  }

  /** How `add_query` changes one user entry: an entry whose `"history"` is
      missing or None is replaced wholesale, so every other key (a profile,
      say) is dropped; otherwise every key other than `"history"` keeps its
      value. */
  ghost predicate EntryUpdated(before: Json, after: Json, query: string, date: string) {
    if before.JObj? && Lookup(before.fields, "history").GetOr(JNull) == JNull then
      after == FreshEntry(query, date)
    else
      && before.JObj? && after.JObj?
      && forall k :: k != "history" ==> Lookup(after.fields, k) == Lookup(before.fields, k)
  }

  /** The user's entry after appending `query` under `date` to `entry`. */
  function AppendToEntry(entry: Json, query: string, date: string): (r: Json)
    requires CanAppend(entry, date)
    ensures EntryQueries(r, date) == Some(EntryQueries(entry, date).GetOr([]) + [JStr(query)])
    ensures EntryUpdated(entry, r, query, date)
    ensures EntryDays(entry).Some? ==>
      (EntryDays(r).Some? &&
       forall d :: d != date ==> Lookup(EntryDays(r).value, d) == Lookup(EntryDays(entry).value, d))
  {
    var h := Lookup(entry.fields, "history").GetOr(JNull);
    if h == JNull then
      var days := [(date, JArr([JStr(query)]))];
      var r := JObj([("history", JObj(days))]);
      assert Lookup(r.fields, "history") == Some(JObj(days));
      assert Lookup(days, date) == Some(JArr([JStr(query)]));
      assert HasKey(r.fields, "history") && HasKey(days, date);
      assert EntryDays(entry).None? && EntryQueries(entry, date).None?;
      assert EntryDays(r) == Some(days);
      assert EntryQueries(r, date) == Some([JStr(query)]);
      assert EntryQueries(entry, date).GetOr([]) + [JStr(query)] == [JStr(query)];
      r
    else
      var cur := Lookup(h.fields, date).GetOr(JNull);
      var list := AppendedList(h.fields, query, date);
      var days := Assign(h.fields, date, JArr(list));
      var r := JObj(Assign(entry.fields, "history", JObj(days)));
      assert EntryDays(entry) == Some(h.fields);
      assert EntryDays(r) == Some(days);
      assert EntryQueries(entry, date).GetOr([]) == (if cur == JNull then [] else cur.items);
      assert EntryQueries(r, date) == Some(list);
      assert list == EntryQueries(entry, date).GetOr([]) + [JStr(query)];
      r
  }

  /** `add_query(user_name, query, date)`: appends the query to the user's
      list for that date. A user entry without a `"history"` (or with None
      there) is replaced wholesale by a fresh one; a missing date gets a new
      list. A history that is not a dict cannot be indexed by name (TypeError);
      a missing user is a KeyError unless the history is still the
      constructor's defaultdict; a user entry, `"history"` or date value of
      the wrong type has no `get` or `append` (AttributeError). */
  function AddQuery(b: Bank, user: string, query: string, date: string): (r: Result<Bank>)
    ensures !b.history.JObj? ==> r == Err(TypeError)
    ensures b.history.JObj? && !HasKey(b.history.fields, user) ==>
      (r.Ok? <==> b.autoVivify) && (r.Err? ==> r.error == KeyError)
    ensures b.history.JObj? && HasKey(b.history.fields, user) ==>
      (r.Ok? <==> CanAppend(Lookup(b.history.fields, user).value, date))
    ensures r.Err? ==> r.error in {TypeError, KeyError, AttributeError}
    ensures r.Ok? ==> QueriesOn(r.value.history, user, date)
                      == Some(QueriesOn(b.history, user, date).GetOr([]) + [JStr(query)])
    ensures r.Ok? ==> forall u :: u != user ==> Lookup(r.value.history.fields, u) == Lookup(b.history.fields, u)
    ensures r.Ok? ==> forall d :: d != date && DaysOf(b.history, user).Some? ==>
      Lookup(DaysOf(r.value.history, user).value, d) == Lookup(DaysOf(b.history, user).value, d)
    ensures r.Ok? ==> r.value.autoVivify == b.autoVivify && r.value.indexes == b.indexes
                      && r.value.snapshotId == b.snapshotId
    ensures r.Ok? ==> && EntryOf(r.value.history, user).Some?
                      && EntryUpdated(EntryOf(b.history, user).GetOr(JObj([])),
                                      EntryOf(r.value.history, user).value, query, date)
  {
    if !b.history.JObj? then Err(TypeError)
    else
      var users := b.history.fields;
      if !HasKey(users, user) then
        if b.autoVivify then
          var entry := AppendToEntry(JObj([]), query, date);
          Ok(b.(history := JObj(Assign(users, user, entry))))
        else Err(KeyError)
      else
        var entry := Lookup(users, user).value;
        if !entry.JObj? then Err(AttributeError)
        else if !CanAppend(entry, date) then Err(AttributeError)
        else Ok(b.(history := JObj(Assign(users, user, AppendToEntry(entry, query, date)))))
  }

  /* ---------- __len__ and prepare_for_vector_db ---------- */

  /** `sum(len(v) for v in fields.values())` */
  function SumLens(fields: Fields): (r: Result<nat>)
    ensures r.Err? ==> r.error == TypeError
  {
    if |fields| == 0 then Ok(0)
    else
      var n :- PyLen(fields[0].1);
      var rest :- SumLens(fields[1..]);
      Ok(n + rest)
  }

  /** The queries counted for one user: `len` of every date's value in
      `data.get("history", {})`. */
  function UserTotal(entry: Json): Result<nat> {
    var days :- GetOr(entry, "history", JObj([]));
    if days.JObj? then SumLens(days.fields) else Err(AttributeError)
  }

  function UsersTotal(users: Fields): Result<nat> {
    if |users| == 0 then Ok(0)
    else
      var n :- UserTotal(users[0].1);
      var rest :- UsersTotal(users[1..]);
      Ok(n + rest)
  }

  /** `len(bank)`: the number of stored queries over all users and dates for a
      dict history, the number of entries for a list, and 0 for anything else. */
  function Len(b: Bank): (r: Result<nat>)
    ensures b.history.JArr? ==> r == Ok(|b.history.items|)
    ensures !b.history.JObj? && !b.history.JArr? ==> r == Ok(0)
    ensures b.history == JObj([]) ==> r == Ok(0)
  {
    match b.history
    case JObj(users) => UsersTotal(users)
    case JArr(items) => Ok(|items|)
    case _ => Ok(0)
  }

  /** `texts.extend(v)` for every value `v` of `fields`, in order. */
  function ExtendAll(fields: Fields): (r: Result<seq<Json>>)
    ensures r.Err? ==> r.error == TypeError
  {
    if |fields| == 0 then Ok([])
    else
      var xs :- Iterate(fields[0].1);
      var rest :- ExtendAll(fields[1..]);
      Ok(xs + rest)
  }

  /** One user's texts: every query of every date of the user's history, flattened. */
  function DaysTexts(days: Json): (r: Result<seq<Json>>)
    ensures r.Err? ==> r.error in {AttributeError, TypeError}
  {
    if days.JObj? then ExtendAll(days.fields) else Err(AttributeError)
  }

  /** The texts of one user entry: the dates of `data.get("history", {})`
      flattened, so an entry without `"history"` contributes none. */
  function UserTexts(entry: Json): (r: Result<seq<Json>>)
    ensures !entry.JObj? ==> r == Err(AttributeError)
    ensures entry.JObj? && !HasKey(entry.fields, "history") ==> r == Ok([])
    ensures r.Err? ==> r.error in {AttributeError, TypeError}
  {
    var days :- GetOr(entry, "history", JObj([]));
    DaysTexts(days)
  }

  /** Every user, in order, paired with that user's texts; the first user
      whose texts cannot be collected stops the whole preparation. */
  function PrepareUsers(users: Fields): (r: Result<Fields>)
    ensures r.Ok? <==> forall i :: 0 <= i < |users| ==> UserTexts(users[i].1).Ok?
    ensures r.Err? ==> r.error in {AttributeError, TypeError}
    ensures r.Ok? ==> |r.value| == |users|
    ensures r.Ok? ==> forall i :: 0 <= i < |users| ==> r.value[i] == (users[i].0, JArr(UserTexts(users[i].1).value))
  {
    if |users| == 0 then Ok([])
    else
      var texts :- UserTexts(users[0].1);
      var rest :- PrepareUsers(users[1..]);
      var r := [(users[0].0, JArr(texts))] + rest;
      assert forall i :: 1 <= i < |users| ==> users[i] == users[1..][i - 1] && r[i] == rest[i - 1];
      Ok(r)
  }

  const UnsupportedHistory: string := "Unsupported history format in MemoryBank: "

  /** `prepare_for_vector_db()`: a dict history becomes a dict from each user
      to the flattened list of that user's queries; a list history is
      returned as is; anything else is rejected with its type in the message. */
  function PrepareForVectorDb(b: Bank): (r: Result<Json>)
    ensures b.history.JArr? ==> r == Ok(b.history)
    ensures b.history.JObj? ==>
      (r.Ok? <==> forall i :: 0 <= i < |b.history.fields| ==> UserTexts(b.history.fields[i].1).Ok?)
    ensures b.history.JObj? && r.Ok? ==>
      && r.value.JObj? && |r.value.fields| == |b.history.fields|
      && forall i :: 0 <= i < |b.history.fields| ==>
           r.value.fields[i] == (b.history.fields[i].0, JArr(UserTexts(b.history.fields[i].1).value))
    ensures !b.history.JObj? && !b.history.JArr? ==>
      r == Err(ValueError(UnsupportedHistory + TypeName(b.history)))
    ensures b.history.JObj? && r.Err? ==> r.error in {AttributeError, TypeError}
  {
    match b.history
    case JObj(users) =>
      var prepared :- PrepareUsers(users);
      Ok(JObj(prepared))
    case JArr(_) => Ok(b.history)
    case _ => Err(ValueError(UnsupportedHistory + TypeName(b.history)))
  }

  /** Every query stored under any date ends up among the flattened texts. */
  lemma {:induction false} ExtendAllHolds(fields: Fields, j: nat, x: Json)
    requires j < |fields| && fields[j].1.JArr? && x in fields[j].1.items
    requires ExtendAll(fields).Ok?
    ensures x in ExtendAll(fields).value
  {
    if j > 0 {
      ExtendAllHolds(fields[1..], j - 1, x);
    }
  }

  /** `prepare_for_vector_db` loses no query: whatever a user's history
      holds under any date is among that user's prepared texts. */
  lemma PreparedHoldsEveryQuery(b: Bank, i: nat, j: nat, x: Json)
    requires b.history.JObj? && PrepareForVectorDb(b).Ok?
    requires i < |b.history.fields|
    requires EntryDays(b.history.fields[i].1).Some?
    requires var days := EntryDays(b.history.fields[i].1).value;
             j < |days| && days[j].1.JArr? && x in days[j].1.items
    ensures x in PrepareForVectorDb(b).value.fields[i].1.items
  {
    var entry := b.history.fields[i].1;
    assert UserTexts(entry) == ExtendAll(EntryDays(entry).value);
    ExtendAllHolds(EntryDays(entry).value, j, x);
  }

  /** The number of items of a list, 0 for anything else. */
  function ItemCount(j: Json): int {
    if j.JArr? then |j.items| else 0
  }

  /** Counting the values' lengths and flattening the values fail together,
      and the count is the length of the flattened list. */
  lemma {:induction false} SumLensExtendAll(fields: Fields)
    ensures SumLens(fields).Ok? <==> ExtendAll(fields).Ok?
    ensures SumLens(fields).Ok? ==> SumLens(fields).value == |ExtendAll(fields).value|
  {
    if |fields| > 0 {
      SumLensExtendAll(fields[1..]);
    }
  }

  lemma {:induction false} UsersTotalPrepared(users: Fields)
    ensures UsersTotal(users).Ok? <==> PrepareUsers(users).Ok?
    ensures UsersTotal(users).Ok? ==> UsersTotal(users).value == SumBy(PrepareUsers(users).value, ItemCount)
  {
    if |users| > 0 {
      UsersTotalPrepared(users[1..]);
      var days := GetOr(users[0].1, "history", JObj([]));
      if days.Ok? && days.value.JObj? {
        SumLensExtendAll(days.value.fields);
      }
      var p := PrepareUsers(users);
      if p.Ok? {
        assert p.value[1..] == PrepareUsers(users[1..]).value;
      }
    }
  }

  /** `len(bank)` counts exactly the texts `prepare_for_vector_db` hands to
      the vector store: for a dict or list history both succeed or fail
      together, and the count is the number of prepared texts. */
  lemma LenCountsPrepared(b: Bank)
    requires b.history.JObj? || b.history.JArr?
    ensures Len(b).Ok? <==> PrepareForVectorDb(b).Ok?
    ensures Len(b).Ok? && b.history.JObj? ==> Len(b).value == SumBy(PrepareForVectorDb(b).value.fields, ItemCount)
    ensures Len(b).Ok? && b.history.JArr? ==> Len(b).value == |PrepareForVectorDb(b).value.items|
  {
    if b.history.JObj? {
      UsersTotalPrepared(b.history.fields);
    }
  }

  /* ---------- add_query on well-formed histories ---------- */

  /** The number of queries of a well-formed user entry. */
  function EntryCount(entry: Json): int {
    if EntryDays(entry).Some? then SumBy(EntryDays(entry).value, ItemCount) else 0
  }

  lemma {:induction false} SumLensOfLists(days: Fields)
    requires forall j :: 0 <= j < |days| ==> days[j].1.JArr?
    ensures SumLens(days) == Ok(SumBy(days, ItemCount))
  {
    if |days| > 0 {
      SumLensOfLists(days[1..]);
    }
  }

  lemma {:induction false} UsersTotalWellFormed(users: Fields)
    requires forall i :: 0 <= i < |users| ==> WellFormedUser(users[i].1)
    ensures UsersTotal(users) == Ok(SumBy(users, EntryCount))
  {
    if |users| > 0 {
      UsersTotalWellFormed(users[1..]);
      var entry := users[0].1;
      var days := Lookup(entry.fields, "history").value;
      SumLensOfLists(days.fields);
      assert UserTotal(entry) == Ok(EntryCount(entry));
    }
  }

  /** Appending to the fresh entry of a new user gives a well-formed entry
      holding the one query. */
  lemma AppendToFreshCounts(query: string, date: string)
    ensures CanAppend(JObj([]), date)
    ensures WellFormedUser(AppendToEntry(JObj([]), query, date))
    ensures EntryCount(AppendToEntry(JObj([]), query, date)) == 1
  {
    var r := AppendToEntry(JObj([]), query, date);
    var days := [(date, JArr([JStr(query)]))];
    assert Lookup(JObj([]).fields, "history") == None;
    assert r == JObj([("history", JObj(days))]);
    assert Lookup(r.fields, "history") == Some(JObj(days));
    assert SumBy(days, ItemCount) == 1;
  }

  /** In a dict of dates each holding a list, appending under one date keeps
      every value a list and adds one query to the total. */
  lemma AppendToDaysCounts(days: Fields, query: string, date: string)
    requires forall j :: 0 <= j < |days| ==> days[j].1.JArr?
    ensures var cur := Lookup(days, date).GetOr(JNull); cur == JNull || cur.JArr?
    ensures var d2 := Assign(days, date, JArr(AppendedList(days, query, date)));
      && (forall j :: 0 <= j < |d2| ==> d2[j].1.JArr?)
      && SumBy(d2, ItemCount) == SumBy(days, ItemCount) + 1
  {
    var list := AppendedList(days, query, date);
    if HasKey(days, date) {
      var i :| 0 <= i < |days| && days[i] == (date, Lookup(days, date).value);
      assert days[i].1.JArr?;
    }
    AssignPreserves(days, date, JArr(list), (j: Json) => j.JArr?);
    SumByAssign(days, date, JArr(list), ItemCount);
  }

  /** Appending to a well-formed entry keeps it well-formed and adds exactly
      one query. */
  lemma AppendToWellFormedCounts(entry: Json, query: string, date: string)
    requires WellFormedUser(entry)
    ensures CanAppend(entry, date)
    ensures WellFormedUser(AppendToEntry(entry, query, date))
    ensures EntryCount(AppendToEntry(entry, query, date)) == EntryCount(entry) + 1
  {
    var h := Lookup(entry.fields, "history").value;
    AppendToDaysCounts(h.fields, query, date);
    var days := Assign(h.fields, date, JArr(AppendedList(h.fields, query, date)));
    var r := AppendToEntry(entry, query, date);
    assert r == JObj(Assign(entry.fields, "history", JObj(days)));
    assert Lookup(r.fields, "history") == Some(JObj(days));
  }

  /** Appending to a well-formed entry (or to the fresh entry of a new user)
      keeps it well-formed and adds exactly one query. */
  lemma AppendToEntryCounts(entry: Json, query: string, date: string)
    requires WellFormedUser(entry) || entry == JObj([])
    ensures CanAppend(entry, date)
    ensures WellFormedUser(AppendToEntry(entry, query, date))
    ensures EntryCount(AppendToEntry(entry, query, date)) == EntryCount(entry) + 1
  {
    if entry == JObj([]) {
      AppendToFreshCounts(query, date);
      assert EntryCount(entry) == 0;
    } else {
      AppendToWellFormedCounts(entry, query, date);
    }
  }

  /** The entry `add_query` appends to: the user's own, or a fresh one. */
  function EntryOrFresh(users: Fields, user: string): Json {
    if HasKey(users, user) then Lookup(users, user).value else JObj([])
  }

  lemma EntryOrFreshWellFormed(b: Bank, user: string)
    requires WellFormed(b.history)
    ensures WellFormedUser(EntryOrFresh(b.history.fields, user)) || EntryOrFresh(b.history.fields, user) == JObj([])
  {
    var users := b.history.fields;
    if HasKey(users, user) {
      var i :| 0 <= i < |users| && users[i] == (user, Lookup(users, user).value);
      assert WellFormedUser(users[i].1);
    }
  }

  lemma AddQueryOnWellFormed(b: Bank, user: string, query: string, date: string)
    requires WellFormed(b.history)
    requires HasKey(b.history.fields, user) || b.autoVivify
    ensures CanAppend(EntryOrFresh(b.history.fields, user), date)
    ensures AddQuery(b, user, query, date)
            == Ok(b.(history := JObj(Assign(b.history.fields, user,
                      AppendToEntry(EntryOrFresh(b.history.fields, user), query, date)))))
  {
    EntryOrFreshWellFormed(b, user);
    AppendToEntryCounts(EntryOrFresh(b.history.fields, user), query, date);
  }

  /** On a well-formed history, `add_query` for a present user (or any user
      while the history is still a defaultdict) succeeds and keeps the
      history well-formed. */
  lemma AddQueryKeepsWellFormed(b: Bank, user: string, query: string, date: string)
    requires WellFormed(b.history)
    requires HasKey(b.history.fields, user) || b.autoVivify
    ensures AddQuery(b, user, query, date).Ok?
    ensures WellFormed(AddQuery(b, user, query, date).value.history)
  {
    var users := b.history.fields;
    var entry := EntryOrFresh(users, user);
    EntryOrFreshWellFormed(b, user);
    AppendToEntryCounts(entry, query, date);
    AddQueryOnWellFormed(b, user, query, date);
    AssignPreserves(users, user, AppendToEntry(entry, query, date), WellFormedUser);
  }

  /** `len` of a well-formed history is the sum of its users' query counts. */
  lemma LenWellFormed(b: Bank)
    requires WellFormed(b.history)
    ensures Len(b) == Ok(SumBy(b.history.fields, EntryCount))
  {
    UsersTotalWellFormed(b.history.fields);
  }

  /** ... and makes `len` grow by exactly one. */
  lemma AddQueryLen(b: Bank, user: string, query: string, date: string)
    requires WellFormed(b.history)
    requires HasKey(b.history.fields, user) || b.autoVivify
    ensures Len(b).Ok? && AddQuery(b, user, query, date).Ok?
    ensures Len(AddQuery(b, user, query, date).value).Ok?
    ensures Len(AddQuery(b, user, query, date).value).value == Len(b).value + 1
  {
    var users := b.history.fields;
    var entry := EntryOrFresh(users, user);
    AddQueryKeepsWellFormed(b, user, query, date);
    EntryOrFreshWellFormed(b, user);
    AppendToEntryCounts(entry, query, date);
    AddQueryOnWellFormed(b, user, query, date);
    var e2 := AppendToEntry(entry, query, date);
    var b2 := AddQuery(b, user, query, date).value;
    assert b2.history.fields == Assign(users, user, e2);
    LenWellFormed(b);
    LenWellFormed(b2);
    SumByAssign(users, user, e2, EntryCount);
    var before := SumBy(users, EntryCount);
    var now := SumBy(b2.history.fields, EntryCount);
    assert (if HasKey(users, user) then EntryCount(Lookup(users, user).value) else 0) == EntryCount(entry);
    assert now == before + 1;
    assert Len(b).value == before;
    assert Len(b2) == Ok(now);
  }

  /** The queries as the strings stored in the history. */
  function Strs(qs: seq<string>): (r: seq<Json>)
    ensures |r| == |qs|
  {
    if |qs| == 0 then [] else [JStr(qs[0])] + Strs(qs[1..])
  }

  lemma StrsCons(prior: seq<Json>, qs: seq<string>)
    requires |qs| > 0
    ensures (prior + [JStr(qs[0])]) + Strs(qs[1..]) == prior + Strs(qs)
  {
    var rest := Strs(qs[1..]);
    assert Strs(qs) == [JStr(qs[0])] + rest;
    assert (prior + [JStr(qs[0])]) + rest == prior + ([JStr(qs[0])] + rest);
  }

  /** `add_query(user, q, date)` for each query in turn. */
  function AddQueries(b: Bank, user: string, qs: seq<string>, date: string): Result<Bank>
    decreases |qs|
  {
    if |qs| == 0 then Ok(b)
    else
      var b1 :- AddQuery(b, user, qs[0], date);
      AddQueries(b1, user, qs[1..], date)
  }

  /** Adding queries one by one to a well-formed history keeps it
      well-formed, and `len` grows by their number. */
  lemma {:induction false} AddQueriesLen(b: Bank, user: string, qs: seq<string>, date: string)
    requires WellFormed(b.history)
    requires HasKey(b.history.fields, user) || b.autoVivify
    ensures AddQueries(b, user, qs, date).Ok?
    ensures WellFormed(AddQueries(b, user, qs, date).value.history)
    ensures HasKey(AddQueries(b, user, qs, date).value.history.fields, user) || b.autoVivify
    ensures Len(b).Ok? && Len(AddQueries(b, user, qs, date).value).Ok?
    ensures Len(AddQueries(b, user, qs, date).value).value == Len(b).value + |qs|
    decreases |qs|
  {
    LenWellFormed(b);
    if |qs| > 0 {
      AddQueryKeepsWellFormed(b, user, qs[0], date);
      AddQueryLen(b, user, qs[0], date);
      var b1 := AddQuery(b, user, qs[0], date).value;
      assert AddQueries(b, user, qs, date) == AddQueries(b1, user, qs[1..], date);
      assert b1.autoVivify == b.autoVivify;
      AddQueriesLen(b1, user, qs[1..], date);
    }
  }

  /** Queries appended one after another line up in order. */
  lemma AppendChain(before: Option<seq<Json>>, middle: Option<seq<Json>>, after: Option<seq<Json>>, qs: seq<string>)
    requires |qs| > 0
    requires middle == Some(before.GetOr([]) + [JStr(qs[0])])
    requires after == Some(middle.GetOr([]) + Strs(qs[1..]))
    ensures after == Some(before.GetOr([]) + Strs(qs))
  {
    StrsCons(before.GetOr([]), qs);
  }

  /** Whenever adding a non-empty sequence of queries succeeds (which
      `AddQueriesLen` guarantees on a well-formed history), they are stored
      in order after the ones already there. */
  lemma {:induction false} AddQueriesAppend(b: Bank, user: string, qs: seq<string>, date: string)
    requires |qs| > 0
    requires AddQueries(b, user, qs, date).Ok?
    ensures QueriesOn(AddQueries(b, user, qs, date).value.history, user, date)
            == Some(QueriesOn(b.history, user, date).GetOr([]) + Strs(qs))
    decreases |qs|
  {
    var b1 := AddQuery(b, user, qs[0], date).value;
    if |qs| > 1 {
      AddQueriesAppend(b1, user, qs[1..], date);
      AppendChain(QueriesOn(b.history, user, date), QueriesOn(b1.history, user, date),
                  QueriesOn(AddQueries(b1, user, qs[1..], date).value.history, user, date), qs);
    } else {
      assert Strs(qs) == [JStr(qs[0])];
    }
  }

  /* ---------- contains ---------- */

  /** `contains(memory, user_name)`, as written: a present user's dates are
      scanned and the memory is compared with each date's whole value, so it
      is found only where a date holds the bare string rather than a list.
      A history that is not a dict fails on `in` or on indexing by name. */
  function Contains(b: Bank, memory: string, user: string): (r: Result<bool>)
    ensures b.history.JObj? && !HasKey(b.history.fields, user) ==> r == Ok(false)
    ensures r == Ok(true) <==>
      && DaysOf(b.history, user).Some?
      && exists i :: 0 <= i < |DaysOf(b.history, user).value| && DaysOf(b.history, user).value[i].1 == JStr(memory)
    ensures b.history.JObj? && HasKey(b.history.fields, user) ==>
      var entry := Lookup(b.history.fields, user).value;
      && (!entry.JObj? ==> r == Err(TypeError))
      && (entry.JObj? && !HasKey(entry.fields, "history") ==> r == Err(KeyError))
      && (entry.JObj? && HasKey(entry.fields, "history") && !Lookup(entry.fields, "history").value.JObj? ==>
            r == Err(AttributeError))
    ensures !b.history.JObj? ==>
      && (r.Ok? <==> ContainsStr(b.history, user) == Ok(false))
      && (r.Ok? ==> r.value == false)
      && (r.Err? ==> r.error == TypeError)
  {
    var present :- ContainsStr(b.history, user);
    if !present then Ok(false)
    else
      var entry :- Subscript(b.history, user);
      var days :- Subscript(entry, "history");
      if days.JObj? then Ok(exists i :: 0 <= i < |days.fields| && days.fields[i].1 == JStr(memory))
      else Err(AttributeError)
  }

  /** Because each date holds a list, `contains` never finds anything in a
      well-formed history, not even a query that was just added. */
  lemma ContainsNeverMatchesLists(b: Bank, memory: string, user: string)
    requires WellFormed(b.history)
    ensures Contains(b, memory, user) == Ok(false)
  {
    var users := b.history.fields;
    if HasKey(users, user) {
      var entry := Lookup(users, user).value;
      var i :| 0 <= i < |users| && users[i] == (user, entry);
      assert WellFormedUser(users[i].1);
    }
  }

  /** `contains` misses a query right after `add_query` stored it. */
  lemma ContainsMissesAddedQuery(b: Bank, user: string, query: string, date: string)
    requires WellFormed(b.history)
    requires HasKey(b.history.fields, user) || b.autoVivify
    ensures AddQuery(b, user, query, date).Ok?
    ensures QueriesOn(AddQuery(b, user, query, date).value.history, user, date).Some?
    ensures JStr(query) in QueriesOn(AddQuery(b, user, query, date).value.history, user, date).value
    ensures Contains(AddQuery(b, user, query, date).value, query, user) == Ok(false)
  {
    AddQueryKeepsWellFormed(b, user, query, date);
    ContainsNeverMatchesLists(AddQuery(b, user, query, date).value, query, user);
    var qs := QueriesOn(AddQuery(b, user, query, date).value.history, user, date).value;
    assert qs[|qs| - 1] == JStr(query);
  }

  /* ---------- search ---------- */

  /** A store's `similarity_search(query, k)` followed by `page_content` of
      each hit: the embedding ranking is not modelled, only that it yields
      texts of the store. */
  type Similarity = (Store, string, int) -> seq<Json>

  /** A similarity search returns at most `k` of the store's own texts. */
  ghost predicate LawfulSimilarity(similar: Similarity) {
    forall st, q, k :: |similar(st, q, k)| <= (if k < 0 then 0 else k)
                       && forall x :: x in similar(st, q, k) ==> x in st.texts
  }

  /** A similarity search on one index; a per-user dict of stores has no
      `similarity_search`. */
  function SearchIndex(ix: Indexed, query: string, topK: int, similar: Similarity): (r: Result<seq<Json>>)
    ensures r.Ok? <==> ix.Single?
    ensures r.Err? ==> r.error == AttributeError
  {
    match ix
    case Single(st) => Ok(similar(st, query, topK))
    case PerUser(_) => Err(AttributeError)
  }

  const MissingUser: string := "No index found for user: "
  const MissingVectorstore: string := "No index found for vectorstore: "
  const NoTarget: string := "Must provide either user_name or vectorstore"

  /** `search(query, vectorstore, user_name, top_k)`: a given user name takes
      precedence and selects that user's index; otherwise the named
      vectorstore's index; with neither, or with an unknown name, a
      ValueError naming what was missing. */
  function Search(b: Bank, query: string, vectorstore: Option<string>, user: Option<string>, topK: int,
                  similar: Similarity): (r: Result<seq<Json>>)
    ensures user.Some? && !HasKey(b.indexes, user.value) ==> r == Err(ValueError(MissingUser + user.value))
    ensures user.Some? && HasKey(b.indexes, user.value) ==>
      r == SearchIndex(Lookup(b.indexes, user.value).value, query, topK, similar)
    ensures user.None? && vectorstore.Some? && !HasKey(b.indexes, vectorstore.value) ==>
      r == Err(ValueError(MissingVectorstore + vectorstore.value))
    ensures user.None? && vectorstore.Some? && HasKey(b.indexes, vectorstore.value) ==>
      r == SearchIndex(Lookup(b.indexes, vectorstore.value).value, query, topK, similar)
    ensures user.None? && vectorstore.None? ==> r == Err(ValueError(NoTarget))
  {
    if user.Some? then
      if !HasKey(b.indexes, user.value) then Err(ValueError(MissingUser + user.value))
      else SearchIndex(Lookup(b.indexes, user.value).value, query, topK, similar)
    else if vectorstore.Some? then
      if !HasKey(b.indexes, vectorstore.value) then Err(ValueError(MissingVectorstore + vectorstore.value))
      else SearchIndex(Lookup(b.indexes, vectorstore.value).value, query, topK, similar)
    else Err(ValueError(NoTarget))
  }

  /** What a search returns comes from the texts of the one index it
      selected, and there are at most `top_k` of them. */
  lemma SearchReturnsStoredTexts(b: Bank, query: string, vectorstore: Option<string>, user: Option<string>,
                                 topK: int, similar: Similarity)
    requires LawfulSimilarity(similar)
    ensures var r := Search(b, query, vectorstore, user, topK, similar);
      r.Ok? ==>
        && (user.Some? || vectorstore.Some?)
        && var name := if user.Some? then user.value else vectorstore.value;
           && HasKey(b.indexes, name)
           && Lookup(b.indexes, name).value.Single?
           && |r.value| <= (if topK < 0 then 0 else topK)
           && forall x :: x in r.value ==> x in Lookup(b.indexes, name).value.store.texts
  {
  }

  /* ---------- save_snapshot ---------- */

  /** The name of the `id`-th snapshot inside a directory. */
  function SnapshotName(id: nat): (r: string)
    ensures !StartsWith(r, "/")
  {
    var r := "snapshot_" + NatToString(id) + ".json";
    assert r[0] == 's';
    r
  }

  /** The counter can be read back from the snapshot name. */
  lemma SnapshotNameInjective(i: nat, j: nat)
    requires SnapshotName(i) == SnapshotName(j)
    ensures i == j
  {
    var x := SnapshotName(i);
    assert NatToString(i) == x[9..|x| - 5];
    assert NatToString(j) == x[9..|x| - 5];
    NatToStringInjective(i, j);
  }

  /** The file `save_snapshot` writes: the given path when it ends in `json`,
      otherwise `snapshot_<id>.json` inside it. */
  function SnapshotPath(savePath: string, id: nat): (r: string)
    ensures EndsWith(savePath, "json") ==> r == savePath
    ensures !EndsWith(savePath, "json") ==> EndsWith(r, SnapshotName(id))
  {
    if EndsWith(savePath, "json") then savePath
    else PathJoin(savePath, SnapshotName(id))
  }

  /** Joining a directory with two relative names gives equal paths only for equal names. */
  lemma PathJoinInjective(a: string, x: string, y: string)
    requires !StartsWith(x, "/") && !StartsWith(y, "/")
    requires PathJoin(a, x) == PathJoin(a, y)
    ensures x == y
  {
    var px := PathJoin(a, x);
    if a == "" || EndsWith(a, "/") {
      assert px == a + x && PathJoin(a, y) == a + y;
      assert x == px[|a|..] == y;
    } else {
      assert px == a + "/" + x && PathJoin(a, y) == a + "/" + y;
      assert x == px[|a| + 1..] == y;
    }
  }

  /** Snapshots into a directory never share a file name: distinct counter
      values give distinct paths. */
  lemma SnapshotPathsDistinct(savePath: string, i: nat, j: nat)
    requires !EndsWith(savePath, "json") && i != j
    ensures SnapshotPath(savePath, i) != SnapshotPath(savePath, j)
  {
    if SnapshotPath(savePath, i) == SnapshotPath(savePath, j) {
      PathJoinInjective(savePath, SnapshotName(i), SnapshotName(j));
      SnapshotNameInjective(i, j);
    }
  }

  /** `save_snapshot(save_path)`: the history, serialised, replaces the
      snapshot file; the counter moves on only when the file was written. */
  function SaveSnapshot(b: Bank, fs: Fs, savePath: string, codec: Codec): (r: Result<(Bank, Fs)>)
    ensures var p := SnapshotPath(savePath, b.snapshotId);
      && (r.Ok? <==> WriteFile(fs, p, codec.dumps(b.history, true)).Ok?)
      && (r.Ok? ==> r.value.0 == b.(snapshotId := b.snapshotId + 1))
      && (r.Ok? ==> r.value.1.files == fs.files[p := codec.dumps(b.history, true)])
      && (r.Ok? ==> r.value.1.dirs == fs.dirs && r.value.1.indexes == fs.indexes)
  {
    var fs1 :- WriteFile(fs, SnapshotPath(savePath, b.snapshotId), codec.dumps(b.history, true));
    Ok((b.(snapshotId := b.snapshotId + 1), fs1))
  }

  /** File `p` exists and holds `content`. */
  predicate Holds(fs: Fs, p: string, content: string) {
    p in fs.files && fs.files[p] == content
  }

  /** Two snapshots in a row into a directory keep both: the second does not
      overwrite the first, and each file holds the history of its moment. */
  lemma SnapshotsAccumulate(b: Bank, fs: Fs, savePath: string, codec: Codec, b1: Bank, fs1: Fs, b2: Bank)
    requires !EndsWith(savePath, "json")
    requires SaveSnapshot(b, fs, savePath, codec) == Ok((b1, fs1))
    requires b2.snapshotId == b1.snapshotId
    ensures SaveSnapshot(b2, fs1, savePath, codec).Ok? ==>
      var fs2 := SaveSnapshot(b2, fs1, savePath, codec).value.1;
      && Holds(fs2, SnapshotPath(savePath, b.snapshotId), codec.dumps(b.history, true))
      && Holds(fs2, SnapshotPath(savePath, b.snapshotId + 1), codec.dumps(b2.history, true))
  {
    SnapshotPathsDistinct(savePath, b.snapshotId, b.snapshotId + 1);
  }

  /* ---------- read_from_json ---------- */

  /** The values of a line-delimited JSON file: each line stripped, blank
      lines skipped, and lines that do not decode skipped as well. */
  function ParseLines(lines: seq<string>, codec: Codec): (r: seq<Json>)
    ensures |r| <= |lines|
  {
    if |lines| == 0 then []
    else
      var line := Strip(lines[0]);
      var here := if line == "" then [] else match codec.loads(line) case Some(j) => [j] case None => [];
      here + ParseLines(lines[1..], codec)
  }

  /** A first line that strips to a decodable text contributes its value, and
      parsing goes on with the remaining lines. */
  lemma ParseLinesCons(lines: seq<string>, codec: Codec, j: Json)
    requires |lines| > 0 && Strip(lines[0]) != "" && codec.loads(Strip(lines[0])) == Some(j)
    ensures ParseLines(lines, codec) == [j] + ParseLines(lines[1..], codec)
  {
  }

  /** Parsing is line by line: the values of two consecutive chunks of lines
      are the values of the first followed by those of the second. */
  lemma {:induction false} ParseLinesAppend(a: seq<string>, c: seq<string>, codec: Codec)
    ensures ParseLines(a + c, codec) == ParseLines(a, codec) + ParseLines(c, codec)
  {
    if |a| > 0 {
      assert (a + c)[0] == a[0] && (a + c)[1..] == a[1..] + c;
      ParseLinesAppend(a[1..], c, codec);
    } else {
      assert a + c == c;
    }
  }

  /** `read_from_json(save_path)`. A path ending in `memory_bank.json` holds
      one JSON document that replaces the history (nothing changes when it
      cannot be read or decoded). Any other path is a line-delimited file:
      the history is first reset to an empty list, then holds the values of
      the decodable lines; when the file cannot be read the reset stays. */
  function ReadFromJson(b: Bank, fs: Fs, savePath: string, codec: Codec): (r: (Bank, Result<()>))
    ensures r.0.indexes == b.indexes && r.0.snapshotId == b.snapshotId
    ensures r.1.Ok? <==> ReadFile(fs, savePath).Ok? && (EndsWith(savePath, "memory_bank.json") ==>
                           codec.loads(ReadFile(fs, savePath).value).Some?)
    ensures r.1.Err? && EndsWith(savePath, "memory_bank.json") ==> r.0 == b
    ensures r.1.Ok? && EndsWith(savePath, "memory_bank.json") ==>
      r.0.history == codec.loads(fs.files[savePath]).value && !r.0.autoVivify
    ensures !EndsWith(savePath, "memory_bank.json") ==>
      r.0.history.JArr? && !r.0.autoVivify && (r.1.Err? ==> r.0.history == JArr([]))
    ensures !EndsWith(savePath, "memory_bank.json") && r.1.Ok? ==>
      r.0.history == JArr(ParseLines(SplitLines(fs.files[savePath]), codec))
  {
    if EndsWith(savePath, "memory_bank.json") then
      match ReadFile(fs, savePath)
      case Err(e) => (b, Err(e))
      case Ok(text) =>
        match codec.loads(text)
        case None => (b, Err(JsonDecodeError))
        case Some(j) => (b.(history := j, autoVivify := false), Ok(()))
    else
      var reset := b.(history := JArr([]), autoVivify := false);
      match ReadFile(fs, savePath)
      case Err(e) => (reset, Err(e))
      case Ok(text) => (reset.(history := JArr(ParseLines(SplitLines(text), codec))), Ok(()))
  }

  /** A snapshot saved to a `memory_bank.json` path reads back, with a lawful
      codec, as the history it saved (a history Python built holds each key
      once). */
  lemma SnapshotReadBack(b: Bank, fs: Fs, savePath: string, codec: Codec, b0: Bank)
    requires LawfulCodec(codec) && DistinctKeys(b.history)
    requires EndsWith(savePath, "memory_bank.json")
    requires SaveSnapshot(b, fs, savePath, codec).Ok?
    ensures var fs1 := SaveSnapshot(b, fs, savePath, codec).value.1;
      var read := ReadFromJson(b0, fs1, savePath, codec);
      read.1.Ok? && read.0.history == b.history
  {
    var n := |savePath|;
    assert savePath[n - 4..] == "json" by {
      assert savePath[n - 16..][12..] == savePath[n - 4..];
    }
    assert SnapshotPath(savePath, b.snapshotId) == savePath;
    var text := codec.dumps(b.history, true);
    var fs1 := SaveSnapshot(b, fs, savePath, codec).value.1;
    assert fs1 == fs.(files := fs.files[savePath := text]);
    WriteKeepsNotUnderFile(fs, savePath, text);
    assert ReadFile(fs1, savePath) == Ok(text);
    assert codec.loads(text) == Some(b.history);
  }

  /* ---------- create_indexes ---------- */

  /** The test `create_indexes` uses to pick the per-user branch: a dict
      whose every value is a dict with a `"history"` key (an empty dict
      passes). */
  predicate PerUserShape(history: Json) {
    && history.JObj?
    && forall i :: 0 <= i < |history.fields| ==>
         history.fields[i].1.JObj? && HasKey(history.fields[i].1.fields, "history")
  }

  /** Subscripting what `create_multiuser_vector_indexes` returned with a
      user name: a dict of stores is looked up, a single store is not
      subscriptable. */
  function StoreOf(ix: Indexed, key: string): (r: Result<Indexed>)
    ensures r.Ok? <==> ix.PerUser? && HasKey(ix.stores, key)
    ensures r.Ok? ==> r.value == Single(Lookup(ix.stores, key).value)
  {
    match ix
    case Single(_) => Err(TypeError)
    case PerUser(stores) =>
      match Lookup(stores, key)
      case None => Err(KeyError)
      case Some(st) => Ok(Single(st))
  }

  /** One turn of the per-user loop of `create_indexes`: the user's texts
      are collected from `user_data["history"]`, then the index builder is
      called exactly as the source calls it, with the index name where the
      documents belong and the documents where the name belongs, and the
      store it returns for the lower-cased user is kept under that key. */
  function IndexUser(b: Bank, fs: Fs, vsPath: string, vectorstore: string, name: string, data: Json, load: bool)
    : (r: Result<(Bank, Fs)>)
    ensures r.Err? ==> r.error in {KeyError, TypeError, AttributeError, ValueError(UnsupportedFormat)}
  {
    var days :- Subscript(data, "history");
    var texts :- DaysTexts(days);
    var key := Lower(name);
    match CreateMultiuserVectorIndexes(fs, vsPath, JStr(vectorstore + "_" + key), JObj([(key, JArr(texts))]), load)
    case Err(e) => Err(e)
    case Ok((fs1, built)) =>
      match StoreOf(built, key)
      case Err(e) => Err(e)
      case Ok(ix) => Ok((b.(indexes := Assign(b.indexes, key, ix)), fs1))
  }

  /** The per-user loop of `create_indexes` over `users`: the users before
      the last one, then the last one. */
  function IndexUsers(b: Bank, fs: Fs, vsPath: string, vectorstore: string, users: Fields, load: bool)
    : (r: Result<(Bank, Fs)>)
    ensures |users| == 0 ==> r == Ok((b, fs))
    ensures r.Err? ==> r.error in {KeyError, TypeError, AttributeError, ValueError(UnsupportedFormat)}
  {
    if |users| == 0 then Ok((b, fs))
    else
      var before :- IndexUsers(b, fs, vsPath, vectorstore, users[..|users| - 1], load);
      IndexUser(before.0, before.1, vsPath, vectorstore, users[|users| - 1].0, users[|users| - 1].1, load)
  }

  /** `create_indexes(vectorstore, embedding_model, load)` as written. A
      per-user history goes through the per-user loop; any other history is
      prepared with `prepare_for_vector_db` and handed to the index builder,
      again with the name first, and what it returns is kept under
      `vectorstore`. */
  function CreateIndexes(b: Bank, fs: Fs, vsPath: string, vectorstore: string, load: bool): (r: Result<(Bank, Fs)>)
    ensures PerUserShape(b.history) ==> r == IndexUsers(b, fs, vsPath, vectorstore, b.history.fields, load)
    ensures !PerUserShape(b.history) && PrepareForVectorDb(b).Err? ==> r == Err(PrepareForVectorDb(b).error)
  {
    if PerUserShape(b.history) then IndexUsers(b, fs, vsPath, vectorstore, b.history.fields, load)
    else
      var documents :- PrepareForVectorDb(b);
      match CreateMultiuserVectorIndexes(fs, vsPath, JStr(vectorstore), documents, load)
      case Err(e) => Err(e)
      case Ok((fs1, built)) => Ok((b.(indexes := Assign(b.indexes, vectorstore, built)), fs1))
  }

  /** The per-user loop fails on its first user, whatever that user's data:
      either collecting the texts fails or the builder rejects the name it
      was given as documents. */
  lemma {:induction false} IndexUsersFails(b: Bank, fs: Fs, vsPath: string, vectorstore: string, users: Fields, load: bool)
    requires |users| > 0
    ensures IndexUsers(b, fs, vsPath, vectorstore, users, load).Err?
  {
    if |users| > 1 {
      IndexUsersFails(b, fs, vsPath, vectorstore, users[..|users| - 1], load);
    }
  }

  /** Because the index name is passed where the documents belong, the
      builder always sees a string and rejects it: `create_indexes` succeeds
      only on an empty dict history, and then changes nothing. Whenever the
      texts themselves could be collected, the error is the builder's
      ValueError. */
  lemma CreateIndexesOnlyOnEmpty(b: Bank, fs: Fs, vsPath: string, vectorstore: string, load: bool)
    ensures CreateIndexes(b, fs, vsPath, vectorstore, load).Ok? <==> b.history == JObj([])
    ensures CreateIndexes(b, fs, vsPath, vectorstore, load).Ok? ==>
      CreateIndexes(b, fs, vsPath, vectorstore, load).value == (b, fs)
    ensures !PerUserShape(b.history) && PrepareForVectorDb(b).Ok? ==>
      CreateIndexes(b, fs, vsPath, vectorstore, load) == Err(ValueError(UnsupportedFormat))
  {
    if b.history.JObj? && b.history.fields == [] {
      assert PerUserShape(b.history);
    } else if PerUserShape(b.history) {
      IndexUsersFails(b, fs, vsPath, vectorstore, b.history.fields, load);
    }
  }

  /** Nor does it matter whether the history is well formed: a bank that has
      recorded at least one query cannot build its indexes. */
  lemma AddQueryThenCreateIndexesFails(b: Bank, user: string, query: string, date: string,
                                       fs: Fs, vsPath: string, vectorstore: string, load: bool)
    requires AddQuery(b, user, query, date).Ok?
    ensures CreateIndexes(AddQuery(b, user, query, date).value, fs, vsPath, vectorstore, load).Err?
  {
    var b1 := AddQuery(b, user, query, date).value;
    assert HasKey(b1.history.fields, user);
    CreateIndexesOnlyOnEmpty(b1, fs, vsPath, vectorstore, load);
  }
}

=== FILE: memory_registry.dfy ===
/** The shared-memory registry: turning device and presence records into
    sentences, caching them as line-delimited instruction files, and the
    start-up routine that loads the user-preference bank, the device bank
    and the environment bank and builds their indexes.

    The HTTP fetches are not modelled: what they returned is a parameter
    (the source turns any failure into an empty list).
 */
module MemoryRegistry {
  import opened Results
  import opened Text
  import opened Assoc
  import opened PyJson
  import opened FileSystem
  import opened MemoryBank
  import Common

  /* ---------- convert_to_natural_language ---------- */

  const DeviceSource: string := "device"
  const EnvSource: string := "env"

  /** `str(d.get(k, default))` inside an f-string, for a dict `d`. */
  function Field(d: Fields, k: string, default: string): (r: string)
    ensures !HasKey(d, k) ==> r == default
    ensures HasKey(d, k) && Lookup(d, k).value.JStr? ==> r == Lookup(d, k).value.s
  {
    match Lookup(d, k)
    case Some(v) => PyStr(v)
    case None => default
  }

  /** `d.get(k)` for a dict `d`, `None` when absent. */
  function Get(d: Fields, k: string, default: Json): (r: Json)
    ensures HasKey(d, k) ==> r == Lookup(d, k).value
    ensures !HasKey(d, k) ==> r == default
  {
    match Lookup(d, k)
    case Some(v) => v
    case None => default
  }

  const FunctionPrefix: string := "- The functionName '"

  /** The clause naming a function's URL: empty unless `"functionUrl"` is
      present and truthy. */
  function UrlClause(f: Fields): (r: string)
    ensures r == "" <==> !Truthy(Get(f, "functionUrl", JNull))
  {
    var url := Get(f, "functionUrl", JNull);
    if Truthy(url) then "can be accessed via functionUrl '" + PyStr(url) + "'" else ""
  }

  /** The clause naming a function's parameters: empty unless
      `"functionParams"` is present and truthy. */
  function ParamsClause(f: Fields): (r: string)
    ensures r == "" <==> !Truthy(Get(f, "functionParams", JNull))
  {
    var params := Get(f, "functionParams", JNull);
    if Truthy(params) then " and requires parameters: " + PyStr(params) else ""
  }

  /** The part of a function's sentence after its name and closing quote. */
  function FunctionTail(f: Fields): (r: string)
    ensures EndsWith(r, ".")
  {
    var t := UrlClause(f) + (ParamsClause(f) + ".");
    EndsWithConcat(ParamsClause(f), ".");
    EndsWithExtend(UrlClause(f), ParamsClause(f) + ".", ".");
    EndsWithExtend(" (function ID: " + (Field(f, "functionId", "N/A") + ") "), t, ".");
    " (function ID: " + (Field(f, "functionId", "N/A") + ") ") + t
  }

  /** The sentence for one device function: its name (default `Unnamed`)
      and id (default `N/A`), then the URL and the parameters clauses, each
      only when present and truthy. A function that is not a dict has no
      `get`. */
  function FunctionLine(f: Json): (r: Result<string>)
    ensures r.Ok? <==> f.JObj?
    ensures !f.JObj? ==> r == Err(AttributeError)
    ensures r.Ok? ==> StartsWith(r.value, FunctionPrefix) && EndsWith(r.value, ".")
    ensures r.Ok? ==>
      r.value == FunctionPrefix + (Field(f.fields, "functionName", "Unnamed") + ("'" +
                 (" (function ID: " + (Field(f.fields, "functionId", "N/A") + ") ") +
                  (UrlClause(f.fields) + (ParamsClause(f.fields) + ".")))))
  {
    if !f.JObj? then Err(AttributeError)
    else
      var rest := Field(f.fields, "functionName", "Unnamed") + ("'" + FunctionTail(f.fields));
      StartsWithConcat(FunctionPrefix, rest);
      EndsWithExtend("'", FunctionTail(f.fields), ".");
      EndsWithExtend(Field(f.fields, "functionName", "Unnamed"), "'" + FunctionTail(f.fields), ".");
      EndsWithExtend(FunctionPrefix, rest, ".");
      Ok(FunctionPrefix + rest)
  }

  /** The function's name can be read back from its sentence: it runs from
      after the opening words up to the next quote, when it holds no quote. */
  lemma FunctionLineNamesFunction(f: Json)
    requires f.JObj?
    requires '\'' !in Field(f.fields, "functionName", "Unnamed")
    ensures var s := FunctionLine(f).value;
      var n := Common.Find(s[|FunctionPrefix|..], "'");
      n >= 0 && s[|FunctionPrefix|..|FunctionPrefix| + n] == Field(f.fields, "functionName", "Unnamed")
  {
    var s := FunctionLine(f).value;
    var name := Field(f.fields, "functionName", "Unnamed");
    var rest := FunctionTail(f.fields);
    assert s == FunctionPrefix + (name + ("'" + rest));
    QuotedNameReadBack(FunctionPrefix, name, rest);
  }

  /** The sentences of a list of functions, in order. */
  function FunctionLines(fs: seq<Json>): (r: Result<seq<string>>)
    ensures r.Ok? <==> forall i :: 0 <= i < |fs| ==> fs[i].JObj?
    ensures r.Ok? ==> |r.value| == |fs|
    ensures r.Ok? ==> forall i :: 0 <= i < |fs| ==> r.value[i] == FunctionLine(fs[i]).value
    ensures r.Err? ==> r.error == AttributeError
  {
    if |fs| == 0 then Ok([])
    else
      var line :- FunctionLine(fs[0]);
      var rest :- FunctionLines(fs[1..]);
      Ok([line] + rest)
  }

  const DeviceHeader: string := "This device supports the following functions:\n"

  /** The first part of a device description: where it is, its name and id,
      each with its default when absent, then the header of the function list. */
  function DeviceHead(d: Fields): (r: string)
    ensures StartsWith(r, "In space ")
    ensures r == "In space " + (Field(d, "spaceId", "N/A") + (", there is a device named '" +
                 (Field(d, "deviceName", "unknown") + ("' with ID " + (Field(d, "deviceId", "N/A") + (". " +
                 DeviceHeader))))))
  {
    var tail := Field(d, "spaceId", "N/A") + (", there is a device named '" +
      (Field(d, "deviceName", "unknown") + ("' with ID " + (Field(d, "deviceId", "N/A") + (". " + DeviceHeader)))));
    StartsWithConcat("In space ", tail);
    "In space " + tail
  }

  /** A device description mentions where the device is, its name and its id. */
  lemma DeviceHeadMentions(d: Fields)
    ensures Occurs(DeviceHead(d), Field(d, "spaceId", "N/A"))
    ensures Occurs(DeviceHead(d), Field(d, "deviceName", "unknown"))
    ensures Occurs(DeviceHead(d), Field(d, "deviceId", "N/A"))
  {
    var space := Field(d, "spaceId", "N/A");
    var name := Field(d, "deviceName", "unknown");
    var id := Field(d, "deviceId", "N/A");
    var r := DeviceHead(d);
    var c3 := ". " + DeviceHeader;
    var c2 := "' with ID " + (id + c3);
    var c1 := ", there is a device named '" + (name + c2);
    var p := ", there is a device named '";
    OccursInside("In space ", space, c1);
    OccursInside(p, name, c2);
    OccursAfterPrefix(space, p + (name + c2), name);
    OccursAfterPrefix("In space ", space + c1, name);
    OccursInside("' with ID ", id, c3);
    OccursAfterPrefix(name, c2, id);
    OccursAfterPrefix(p, name + c2, id);
    OccursAfterPrefix(space, c1, id);
    OccursAfterPrefix("In space ", space + c1, id);
  }

  /** The functions of a device: the `"functions"` entry, an empty list when absent. */
  function DeviceFunctions(d: Fields): Json {
    Get(d, "functions", JArr([]))
  }

  /** The description of one device: its head, then one line per function.
      A device that is not a dict has no `get`; a `"functions"` value that
      cannot be iterated is a TypeError. */
  function DeviceSentence(d: Json): (r: Result<string>)
    ensures !d.JObj? ==> r == Err(AttributeError)
    ensures d.JObj? ==> (r.Ok? <==> Iterate(DeviceFunctions(d.fields)).Ok?
                                     && FunctionLines(Iterate(DeviceFunctions(d.fields)).value).Ok?)
    ensures r.Ok? ==> StartsWith(r.value, "In space ")
  {
    if !d.JObj? then Err(AttributeError)
    else
      var fs :- Iterate(DeviceFunctions(d.fields));
      var lines :- FunctionLines(fs);
      var head := DeviceHead(d.fields);
      assert (head + JoinWith("\n", lines))[..9] == head[..9];
      Ok(head + JoinWith("\n", lines))
  }

  const PersonPrefix: string := "Person '"

  /** The part of a presence sentence after the person's name and its closing quote. */
  function PlaceText(spaceId: string): (r: string)
    ensures EndsWith(r, ".") && EndsWith(r, spaceId + ".")
  {
    EndsWithConcat(" is currently located in space " + spaceId, ".");
    EndsWithConcat(" is currently located in space ", spaceId + ".");
    assert " is currently located in space " + (spaceId + ".") == " is currently located in space " + spaceId + ".";
    " is currently located in space " + spaceId + "."
  }

  /** A presence sentence for a person name and a space id. */
  function PresenceText(name: string, spaceId: string): (r: string)
    ensures StartsWith(r, PersonPrefix) && EndsWith(r, ".") && EndsWith(r, spaceId + ".")
    ensures r == PersonPrefix + (name + "'" + (" is currently located in space " + spaceId + "."))
  {
    var place := PlaceText(spaceId);
    StartsWithConcat(PersonPrefix, name + "'" + place);
    EndsWithExtend(PersonPrefix + (name + "'"), place, ".");
    EndsWithExtend(PersonPrefix + (name + "'"), place, spaceId + ".");
    PersonPrefix + (name + "'" + place)
  }

  /** The sentence for one person's whereabouts. */
  function EnvSentence(d: Json): (r: Result<string>)
    ensures r.Ok? <==> d.JObj?
    ensures !d.JObj? ==> r == Err(AttributeError)
    ensures r.Ok? ==> StartsWith(r.value, PersonPrefix) && EndsWith(r.value, ".")
    ensures d.JObj? ==> r.value == PresenceText(Field(d.fields, "personName", "unknown"), Field(d.fields, "spaceId", "N/A"))
  {
    if !d.JObj? then Err(AttributeError)
    else Ok(PresenceText(Field(d.fields, "personName", "unknown"), Field(d.fields, "spaceId", "N/A")))
  }

  /** The text for one record of the given source: a device description, a
      presence sentence, or the record serialised as JSON. */
  function Sentence(d: Json, source: string, codec: Codec): Result<string> {
    if source == DeviceSource then DeviceSentence(d)
    else if source == EnvSource then EnvSentence(d)
    else Ok(codec.dumps(d, true))
  }

  /** The sentences of a list of records, in order. */
  function Sentences(ds: seq<Json>, source: string, codec: Codec): (r: Result<seq<string>>)
    ensures r.Ok? <==> forall i :: 0 <= i < |ds| ==> Sentence(ds[i], source, codec).Ok?
    ensures r.Ok? ==> |r.value| == |ds|
    ensures r.Ok? ==> forall i :: 0 <= i < |ds| ==> r.value[i] == Sentence(ds[i], source, codec).value
  {
    if |ds| == 0 then Ok([])
    else
      var s :- Sentence(ds[0], source, codec);
      var rest :- Sentences(ds[1..], source, codec);
      Ok([s] + rest)
  }

  /** `convert_to_natural_language(data, source)`: one text per record of
      `data`, in order. */
  function ConvertToNaturalLanguage(data: Json, source: string, codec: Codec): (r: Result<seq<string>>)
    ensures r.Ok? <==> Iterate(data).Ok? && forall i :: 0 <= i < |Iterate(data).value| ==>
                         Sentence(Iterate(data).value[i], source, codec).Ok?
    ensures r.Ok? ==> |r.value| == |Iterate(data).value|
    ensures r.Ok? ==> forall i :: 0 <= i < |r.value| ==> r.value[i] == Sentence(Iterate(data).value[i], source, codec).value
  {
    var ds :- Iterate(data);
    Sentences(ds, source, codec)
  }

  /** A device description mentions every one of the device's functions,
      each with its own sentence. */
  lemma DeviceSentenceListsFunctions(d: Json, k: nat)
    requires d.JObj? && DeviceSentence(d).Ok?
    requires k < |Iterate(DeviceFunctions(d.fields)).value|
    ensures var f := Iterate(DeviceFunctions(d.fields)).value[k];
      FunctionLine(f).Ok? && Occurs(DeviceSentence(d).value, FunctionLine(f).value)
  {
    var fs := Iterate(DeviceFunctions(d.fields)).value;
    var lines := FunctionLines(fs).value;
    JoinWithContains("\n", lines, k);
    OccursAfterPrefix(DeviceHead(d.fields), JoinWith("\n", lines), lines[k]);
  }

  /** The first quote of `x + "'" + rest` is the one after `x`, when `x` has none. */
  lemma FirstQuote(x: string, rest: string)
    requires '\'' !in x
    ensures Common.Find(x + "'" + rest, "'") == |x|
  {
    var t := x + "'" + rest;
    Common.FindSpec(t, "'");
    assert IsMatchAt(t, "'", |x|) by {
      assert t[|x|..|x| + 1] == "'";
    }
    forall j | 0 <= j < |x|
      ensures !IsMatchAt(t, "'", j)
    {
      assert t[j..j + 1][0] == x[j];
    }
    var n := Common.Find(t, "'");
    assert n > |x| ==> !IsMatchAt(t, "'", |x|);
  }

  /** In `p + x + "'" + rest` the text after `p` up to the next quote is `x`,
      when `x` holds no quote. */
  lemma QuotedNameReadBack(p: string, x: string, rest: string)
    requires '\'' !in x
    ensures var s := p + (x + ("'" + rest));
      var n := Common.Find(s[|p|..], "'");
      n >= 0 && s[|p|..|p| + n] == x
  {
    var s := p + (x + ("'" + rest));
    assert s[|p|..] == x + "'" + rest;
    FirstQuote(x, rest);
  }

  /** The name in a presence sentence runs from after `Person '` up to the
      next quote, when the name holds no quote. */
  lemma PresenceTextNamesPerson(name: string, spaceId: string)
    requires '\'' !in name
    ensures var s := PresenceText(name, spaceId);
      var n := Common.Find(s[|PersonPrefix|..], "'");
      n >= 0 && s[|PersonPrefix|..|PersonPrefix| + n] == name
  {
    var s := PresenceText(name, spaceId);
    var rest := PlaceText(spaceId);
    assert s[|PersonPrefix|..] == name + "'" + rest;
    FirstQuote(name, rest);
  }

  /** The person named in a presence record can be read back from its
      sentence, when the name holds no quote. */
  lemma EnvSentenceNamesPerson(d: Json)
    requires d.JObj?
    requires '\'' !in Field(d.fields, "personName", "unknown")
    ensures var s := EnvSentence(d).value;
      var n := Common.Find(s[|PersonPrefix|..], "'");
      n >= 0 && s[|PersonPrefix|..|PersonPrefix| + n] == Field(d.fields, "personName", "unknown")
  {
    PresenceTextNamesPerson(Field(d.fields, "personName", "unknown"), Field(d.fields, "spaceId", "N/A"));
  }

  /* ---------- ensure_json_file ---------- */

  /** The record written for one sentence. */
  function Instruction(line: string): Json {
    JObj([("instruction", JStr(line))])
  }

  /** The lines of an instruction file: each sentence wrapped in a record
      and serialised without ASCII escaping. */
  function InstructionLines(lines: seq<string>, codec: Codec): (r: seq<string>)
    ensures |r| == |lines|
    ensures forall i :: 0 <= i < |lines| ==> r[i] == codec.dumps(Instruction(lines[i]), false)
  {
    seq(|lines|, i requires 0 <= i < |lines| => codec.dumps(Instruction(lines[i]), false))
  }

  /** The content of an instruction file: every record line followed by a newline. */
  function InstructionFile(lines: seq<string>, codec: Codec): string {
    Concat(Terminate(InstructionLines(lines, codec)))
  }

  /** `os.makedirs(os.path.dirname(path), exist_ok=True)` followed by
      `open(path, "w")` succeed: the parent is a non-empty path that is not a
      regular file, no ancestor of the parent or of the file is a regular
      file, and the file is not a directory (the parent just created among
      them). */
  predicate Creatable(fs: Fs, path: string) {
    && Dirname(path) != "" && Dirname(path) !in fs.files && !UnderFile(fs, Dirname(path))
    && !UnderFile(fs, path) && path !in fs.dirs && path != Dirname(path)
  }

  /** `ensure_json_file(path, data, source)`. Falsy data leaves everything as
      it is. Otherwise the parent directory is created, the file is opened
      for writing (and so emptied), and then the sentences are written, one
      instruction record per line. A conversion error leaves the emptied
      file behind. */
  function EnsureJsonFile(fs: Fs, path: string, data: Json, source: string, codec: Codec): (r: (Fs, Result<()>))
    ensures !Truthy(data) ==> r == (fs, Ok(()))
    ensures Truthy(data) ==>
      (r.1.Ok? <==> Creatable(fs, path) && ConvertToNaturalLanguage(data, source, codec).Ok?)
    ensures Truthy(data) && r.1.Ok? ==>
      Holds(r.0, path, InstructionFile(ConvertToNaturalLanguage(data, source, codec).value, codec))
    ensures Truthy(data) && r.1.Err? && ConvertToNaturalLanguage(data, source, codec).Err? && Creatable(fs, path) ==>
      Holds(r.0, path, "")
    ensures r.0.indexes == fs.indexes
  {
    if !Truthy(data) then (fs, Ok(()))
    else
      match MakeDirs(fs, Dirname(path))
      case Err(e) => (fs, Err(e))
      case Ok(fs1) =>
        match WriteFile(fs1, path, "")
        case Err(e) => (fs1, Err(e))
        case Ok(fs2) =>
          match ConvertToNaturalLanguage(data, source, codec)
          case Err(e) => (fs2, Err(e))
          case Ok(lines) => (fs2.(files := fs2.files[path := InstructionFile(lines, codec)]), Ok(()))
  }

  /* ---------- reading an instruction file back ---------- */

  /** A record holding an instruction. */
  predicate HasInstruction(item: Json) {
    item.JObj? && HasKey(item.fields, "instruction")
  }

  /** An item the comprehension below gets past: a dict, or a value whose
      `"instruction" in item` is a membership or substring test that fails.
      When such a test succeeds, `item["instruction"]` raises; a number,
      boolean or None cannot be tested at all. */
  predicate Extractable(item: Json) {
    item.JObj? || ContainsStr(item, "instruction") == Ok(false)
  }

  /** The instruction values of the records that hold one, in order. */
  function InstructionsOf(items: seq<Json>): (r: seq<Json>)
    ensures |r| <= |items|
  {
    if |items| == 0 then []
    else if HasInstruction(items[0]) then [Lookup(items[0].fields, "instruction").value] + InstructionsOf(items[1..])
    else InstructionsOf(items[1..])
  }

  /** A value is among the extracted instructions exactly when some record holds it. */
  lemma {:induction false} InstructionsOfMembers(items: seq<Json>, x: Json)
    ensures x in InstructionsOf(items) <==>
      exists i :: 0 <= i < |items| && HasInstruction(items[i]) && x == Lookup(items[i].fields, "instruction").value
  {
    if |items| > 0 {
      InstructionsOfMembers(items[1..], x);
      if x in InstructionsOf(items[1..]) {
        var i :| 0 <= i < |items[1..]| && HasInstruction(items[1..][i])
                 && x == Lookup(items[1..][i].fields, "instruction").value;
        assert items[i + 1] == items[1..][i];
      }
      forall i | 1 <= i < |items| && HasInstruction(items[i]) && x == Lookup(items[i].fields, "instruction").value
        ensures x in InstructionsOf(items[1..])
      {
        assert items[1..][i - 1] == items[i];
      }
    }
  }

  /** `[item["instruction"] for item in items if "instruction" in item]`:
      succeeds exactly when every item can be got past, and then yields the
      instructions of the records that hold one, in order. */
  function Instructions(items: seq<Json>): (r: Result<seq<Json>>)
    ensures r.Ok? <==> forall i :: 0 <= i < |items| ==> Extractable(items[i])
    ensures r.Ok? ==> r.value == InstructionsOf(items)
    ensures r.Err? ==> r.error == TypeError
  {
    if |items| == 0 then Ok([])
    else
      assert forall i :: 1 <= i < |items| ==> items[i] == items[1..][i - 1];
      var has :- ContainsStr(items[0], "instruction");
      if has then
        var v :- Subscript(items[0], "instruction");
        var rest :- Instructions(items[1..]);
        Ok([v] + rest)
      else Instructions(items[1..])
  }

  /** The step of `init_shared_memory` that follows reading a device or
      environment file: when the history is a list whose first item is a
      dict, it is replaced by the `"instruction"` values of its items. An
      empty list fails on `history[0]`. */
  function ExtractInstructions(b: Bank): (r: Result<Bank>)
    ensures b.history == JArr([]) ==> r == Err(IndexError)
    ensures b.history.JArr? && r.Ok? ==> r.value.history.JArr? && |r.value.history.items| <= |b.history.items|
    ensures b.history.JArr? && |b.history.items| > 0 && !b.history.items[0].JObj? ==> r == Ok(b)
    ensures b.history.JArr? && |b.history.items| > 0 && b.history.items[0].JObj? ==>
      && (r.Ok? <==> forall i :: 0 <= i < |b.history.items| ==> Extractable(b.history.items[i]))
      && (r.Ok? ==> r.value == b.(history := JArr(InstructionsOf(b.history.items))))
    ensures !b.history.JArr? ==> r == Ok(b)
    ensures r.Ok? ==> r.value.indexes == b.indexes && r.value.snapshotId == b.snapshotId
  {
    match b.history
    case JArr(items) =>
      if |items| == 0 then Err(IndexError)
      else if items[0].JObj? then
        var xs :- Instructions(items);
        Ok(b.(history := JArr(xs)))
      else Ok(b)
    case _ => Ok(b)
  }

  /** The instruction record of `line` is encoded on one framed line and
      decodes to itself. */
  predicate RecordReadsBack(line: string, codec: Codec) {
    var x := codec.dumps(Instruction(line), false);
    Framed(x) && codec.loads(x) == Some(Instruction(line))
  }

  /** Every instruction record of a lawful codec reads back. */
  lemma InstructionRecordReadBack(line: string, codec: Codec)
    requires LawfulCodec(codec)
    ensures RecordReadsBack(line, codec)
  {
    assert DistinctKeys(Instruction(line));
  }

  /** Records that read back one by one survive the line-by-line parse. */
  lemma {:induction false} ParseInstructionLines(lines: seq<string>, codec: Codec)
    requires forall i :: 0 <= i < |lines| ==> RecordReadsBack(lines[i], codec)
    ensures ParseLines(Terminate(InstructionLines(lines, codec)), codec)
            == seq(|lines|, i requires 0 <= i < |lines| => Instruction(lines[i]))
  {
    if |lines| > 0 {
      var tail := lines[1..];
      var xs := InstructionLines(lines, codec);
      var t := Terminate(xs);
      var want := seq(|lines|, i requires 0 <= i < |lines| => Instruction(lines[i]));
      var wantTail := seq(|tail|, i requires 0 <= i < |tail| => Instruction(tail[i]));
      assert want == [Instruction(lines[0])] + wantTail;
      assert t[1..] == Terminate(InstructionLines(tail, codec)) by {
        assert InstructionLines(tail, codec) == xs[1..];
      }
      assert forall i :: 0 <= i < |tail| ==> RecordReadsBack(tail[i], codec) by {
        assert forall i :: 0 <= i < |tail| ==> tail[i] == lines[i + 1];
      }
      ParseInstructionLines(tail, codec);
      assert Strip(t[0]) == xs[0] by {
        assert RecordReadsBack(lines[0], codec);
        StripTerminated(xs[0]);
      }
      ParseLinesCons(t, codec, Instruction(lines[0]));
    }
  }

  /** Extracting from instruction records gives back the sentences. */
  lemma {:induction false} InstructionsOfRecords(lines: seq<string>)
    ensures Instructions(seq(|lines|, i requires 0 <= i < |lines| => Instruction(lines[i]))) == Ok(Strs(lines))
  {
    var recs := seq(|lines|, i requires 0 <= i < |lines| => Instruction(lines[i]));
    if |lines| > 0 {
      assert recs[1..] == seq(|lines[1..]|, i requires 0 <= i < |lines[1..]| => Instruction(lines[1..][i]));
      InstructionsOfRecords(lines[1..]);
      assert Lookup(recs[0].fields, "instruction") == Some(JStr(lines[0]));
      assert Strs(lines) == [JStr(lines[0])] + Strs(lines[1..]);
    }
  }

  /** The file `ensure_json_file` wrote can be opened and read, and holds
      the instruction records. */
  lemma EnsureJsonFileReadable(fs: Fs, path: string, data: Json, source: string, codec: Codec)
    requires Truthy(data) && EnsureJsonFile(fs, path, data, source, codec).1.Ok?
    ensures ReadFile(EnsureJsonFile(fs, path, data, source, codec).0, path)
            == Ok(InstructionFile(ConvertToNaturalLanguage(data, source, codec).value, codec))
  {
    var fs1 := MakeDirs(fs, Dirname(path)).value;
    var fs2 := WriteFile(fs1, path, "").value;
    var text := InstructionFile(ConvertToNaturalLanguage(data, source, codec).value, codec);
    assert fs1.files == fs.files && fs2.files == fs.files[path := ""];
    WriteKeepsNotUnderFile(fs, path, text);
    assert fs.files[path := ""][path := text] == fs.files[path := text];
  }

  /** An instruction file whose records read back one by one is read by
      `read_from_json` as those records, in order. */
  lemma InstructionTextReadsBack(fs: Fs, path: string, lines: seq<string>, codec: Codec)
    requires !EndsWith(path, "memory_bank.json")
    requires ReadFile(fs, path) == Ok(InstructionFile(lines, codec))
    requires forall i :: 0 <= i < |lines| ==> RecordReadsBack(lines[i], codec)
    ensures var read := ReadFromJson(NewBank(), fs, path, codec);
      read.1.Ok? && read.0.history == JArr(seq(|lines|, i requires 0 <= i < |lines| => Instruction(lines[i])))
  {
    var xs := InstructionLines(lines, codec);
    forall i | 0 <= i < |xs|
      ensures '\n' !in xs[i]
    {
      assert RecordReadsBack(lines[i], codec);
    }
    SplitTerminated(xs);
    ParseInstructionLines(lines, codec);
  }

  /** What `ensure_json_file` writes, `read_from_json` followed by the
      instruction extraction reads back: the sentences, in order. */
  lemma InstructionFileRoundTrip(fs: Fs, path: string, data: Json, source: string, codec: Codec)
    requires LawfulCodec(codec)
    requires !EndsWith(path, "memory_bank.json")
    requires Truthy(data) && EnsureJsonFile(fs, path, data, source, codec).1.Ok?
    ensures var lines := ConvertToNaturalLanguage(data, source, codec).value;
      var read := ReadFromJson(NewBank(), EnsureJsonFile(fs, path, data, source, codec).0, path, codec);
      && read.1.Ok?
      && read.0.history == JArr(seq(|lines|, i requires 0 <= i < |lines| => Instruction(lines[i])))
      && (|lines| > 0 ==> ExtractInstructions(read.0) == Ok(read.0.(history := JArr(Strs(lines)))))
  {
    var lines := ConvertToNaturalLanguage(data, source, codec).value;
    EnsureJsonFileReadable(fs, path, data, source, codec);
    forall i | 0 <= i < |lines|
      ensures RecordReadsBack(lines[i], codec)
    {
      InstructionRecordReadBack(lines[i], codec);
    }
    InstructionTextReadsBack(EnsureJsonFile(fs, path, data, source, codec).0, path, lines, codec);
    InstructionsOfRecords(lines);
  }

  /* ---------- init_shared_memory ---------- */

  const UserProfileFile: string := "memory_bank.json"
  const DeviceInfoFile: string := "device_info.json"
  const EnvInfoFile: string := "env_info.json"
  const UserProfileStore: string := "chroma_userprofile"
  const DeviceInfoStore: string := "chroma_deviceinfo"
  const EnvironmentStore: string := "chroma_environment"

  /** The cache test: the file is fetched again when it does not exist or is
      an empty regular file. A directory has a non-zero size. */
  predicate NeedsFetch(fs: Fs, p: string) {
    !Exists(fs, p) || (p !in fs.dirs && p in fs.files && fs.files[p] == "")
  }

  /** The user-preference step: read the whole-file bank and, when it is a
      dict, build its indexes; any other bank is kept as read. */
  function LoadProfiles(fs: Fs, path: string, vsPath: string, codec: Codec): (r: Result<(Bank, Fs)>)
    ensures var read := ReadFromJson(NewBank(), fs, path, codec);
      && (read.1.Err? ==> r == Err(read.1.error))
      && (read.1.Ok? && read.0.history.JObj? ==> r == CreateIndexes(read.0, fs, vsPath, UserProfileStore, false))
      && (read.1.Ok? && !read.0.history.JObj? ==> r == Ok((read.0, fs)))
  {
    var read := ReadFromJson(NewBank(), fs, path, codec);
    if read.1.Err? then Err(read.1.error)
    else if read.0.history.JObj? then CreateIndexes(read.0, fs, vsPath, UserProfileStore, false)
    else Ok((read.0, fs))
  }

  /** The user-preference step succeeds only on a bank that is not a dict or
      is an empty dict, and never changes the filesystem. */
  lemma LoadProfilesKeepsFs(fs: Fs, path: string, vsPath: string, codec: Codec)
    requires LoadProfiles(fs, path, vsPath, codec).Ok?
    ensures LoadProfiles(fs, path, vsPath, codec).value.1 == fs
    ensures var b := LoadProfiles(fs, path, vsPath, codec).value.0;
      b.history.JObj? ==> b.history == JObj([])
  {
    var read := ReadFromJson(NewBank(), fs, path, codec);
    if read.0.history.JObj? {
      CreateIndexesOnlyOnEmpty(read.0, fs, vsPath, UserProfileStore, false);
    }
  }

  /** The device or environment step: refresh the cache file from what was
      fetched when needed, read it line by line, extract the instructions
      and build the shared index `store`. The filesystem is returned whether
      or not a later step raises, since the cache file stays written. */
  function LoadShared(fs: Fs, path: string, source: string, fetched: Json, codec: Codec, vsPath: string, store: string)
    : (r: (Fs, Result<Bank>))
    ensures !NeedsFetch(fs, path) ==> r.0 == fs
    ensures NeedsFetch(fs, path) && !Truthy(fetched) ==> r.0 == fs
    ensures NeedsFetch(fs, path) && Truthy(fetched) && EnsureJsonFile(fs, path, fetched, source, codec).1.Ok? ==>
      Holds(r.0, path, InstructionFile(ConvertToNaturalLanguage(fetched, source, codec).value, codec))
  {
    var cached := if NeedsFetch(fs, path) then EnsureJsonFile(fs, path, fetched, source, codec) else (fs, Ok(()));
    if cached.1.Err? then (cached.0, Err(cached.1.error))
    else
      var read := ReadFromJson(NewBank(), cached.0, path, codec);
      if read.1.Err? then (cached.0, Err(read.1.error))
      else
        match ExtractInstructions(read.0)
        case Err(e) => (cached.0, Err(e))
        case Ok(b) =>
          match CreateIndexes(b, cached.0, vsPath, store, false)
          case Err(e) => (cached.0, Err(e))
          case Ok((b1, fs1)) =>
            CreateIndexesOnlyOnEmpty(b, cached.0, vsPath, store, false);
            (fs1, Ok(b1))
  }

  /** A file that is already cached is not rewritten: what was fetched does
      not matter, and the cache file keeps its content. */
  lemma CachedFileIgnoresFetch(fs: Fs, path: string, source: string, a: Json, c: Json, codec: Codec, vsPath: string, store: string)
    requires !NeedsFetch(fs, path)
    ensures LoadShared(fs, path, source, a, codec, vsPath, store) == LoadShared(fs, path, source, c, codec, vsPath, store)
    ensures path in fs.files ==> var after := LoadShared(fs, path, source, a, codec, vsPath, store).0;
      path in after.files && after.files[path] == fs.files[path]
  {
  }

  /** A missing or empty cache file is replaced by what was fetched before it is read. */
  lemma FetchedDataIsRead(fs: Fs, path: string, source: string, fetched: Json, codec: Codec)
    requires LawfulCodec(codec)
    requires !EndsWith(path, "memory_bank.json")
    requires NeedsFetch(fs, path) && Truthy(fetched)
    requires EnsureJsonFile(fs, path, fetched, source, codec).1.Ok?
    ensures var lines := ConvertToNaturalLanguage(fetched, source, codec).value;
      |lines| > 0 ==>
        var read := ReadFromJson(NewBank(), EnsureJsonFile(fs, path, fetched, source, codec).0, path, codec);
        read.1.Ok? && ExtractInstructions(read.0).Ok?
        && ExtractInstructions(read.0).value.history == JArr(Strs(lines))
  {
    InstructionFileRoundTrip(fs, path, fetched, source, codec);
  }

  /** The device and environment steps never succeed. A line-delimited file
      always reads as a list, the extraction keeps it a list, and
      `create_indexes` rejects every list because of the swapped arguments
      of its call to the index builder. */
  lemma LoadSharedFails(fs: Fs, path: string, source: string, fetched: Json, codec: Codec, vsPath: string, store: string)
    requires !EndsWith(path, "memory_bank.json")
    ensures LoadShared(fs, path, source, fetched, codec, vsPath, store).1.Err?
  {
    var cached := if NeedsFetch(fs, path) then EnsureJsonFile(fs, path, fetched, source, codec) else (fs, Ok(()));
    var read := ReadFromJson(NewBank(), cached.0, path, codec);
    if cached.1.Ok? && read.1.Ok? && ExtractInstructions(read.0).Ok? {
      var b := ExtractInstructions(read.0).value;
      assert b.history.JArr?;
      CreateIndexesOnlyOnEmpty(b, cached.0, vsPath, store, false);
    }
  }

  /** The result of `init_shared_memory`: the filesystem it leaves and the
      user-preference, device and environment banks. */
  datatype Shared = Shared(fs: Fs, userProfile: Bank, deviceInfo: Bank, environmentInfo: Bank)

  /** `init_shared_memory()` with `SMARTHOME_ROOT` as `root`, the vector
      store directory as `vsPath`, and what the two HTTP fetches returned. */
  function InitSharedMemory(fs: Fs, root: string, vsPath: string, codec: Codec, devices: Json, people: Json)
    : (r: Result<Shared>)
    ensures PathJoin(root, "memory_data") in fs.files ==> r == Err(FileExistsError)
  {
    var dataRoot := PathJoin(root, "memory_data");
    var fs1 :- MakeDirs(fs, dataRoot);
    var profilePath := PathJoin(dataRoot, UserProfileFile);
    var profile :- if Exists(fs1, profilePath) then LoadProfiles(fs1, profilePath, vsPath, codec) else Ok((NewBank(), fs1));
    match LoadShared(profile.1, PathJoin(dataRoot, DeviceInfoFile), DeviceSource, devices, codec, vsPath, DeviceInfoStore)
    case (_, Err(e)) => Err(e)
    case (fs2, Ok(device)) =>
      match LoadShared(fs2, PathJoin(dataRoot, EnvInfoFile), EnvSource, people, codec, vsPath, EnvironmentStore)
      case (_, Err(e)) => Err(e)
      case (fs3, Ok(env)) => Ok(Shared(fs3, profile.0, device, env))
  }

  /** `device_info.json` is not `memory_bank.json`, so it is read line by line. */
  lemma DeviceFileIsLineDelimited(dataRoot: string)
    ensures !EndsWith(PathJoin(dataRoot, DeviceInfoFile), "memory_bank.json")
  {
    var p := PathJoin(dataRoot, DeviceInfoFile);
    assert p[|p| - 16] == DeviceInfoFile[0];
  }

  /** `init_shared_memory` always raises: if nothing earlier fails, building
      the device index does. */
  lemma InitSharedMemoryFails(fs: Fs, root: string, vsPath: string, codec: Codec, devices: Json, people: Json)
    ensures InitSharedMemory(fs, root, vsPath, codec, devices, people).Err?
  {
    var dataRoot := PathJoin(root, "memory_data");
    DeviceFileIsLineDelimited(dataRoot);
    var fs1 := MakeDirs(fs, dataRoot);
    if fs1.Ok? {
      var profilePath := PathJoin(dataRoot, UserProfileFile);
      var profile := if Exists(fs1.value, profilePath) then LoadProfiles(fs1.value, profilePath, vsPath, codec)
                     else Ok((NewBank(), fs1.value));
      if profile.Ok? {
        LoadSharedFails(profile.value.1, PathJoin(dataRoot, DeviceInfoFile), DeviceSource, devices, codec,
                        vsPath, DeviceInfoStore);
      }
    }
  }
}

=== FILE: pyjson.dfy ===
/** Python values as `json.load` produces them, and the handful of Python
    operations the core applies to them (`d.get`, `d[k]`, `k in x`, `len`,
    iteration, truthiness, `str`).

    A `JObj` is a Python `dict`: its fields keep insertion order, which is
    the order in which Python iterates a dict. Python dict keys are distinct;
    assigning a key that is not yet present appends it, assigning one that is
    present replaces its value in place (`Assign`).
 */
module PyJson {
  import opened Results
  import opened Text
  import opened Assoc

  datatype Json =
    | JNull
    | JBool(b: bool)
    | JInt(i: int)
    | JStr(s: string)
    | JArr(items: seq<Json>)
    | JObj(fields: seq<(string, Json)>)

  type Fields = seq<(string, Json)>

  /** Python truthiness: `None`, `False`, `0`, `""`, `[]` and `{}` are false. */
  predicate Truthy(j: Json) {
    match j
    case JNull => false
    case JBool(b) => b
    case JInt(i) => i != 0
    case JStr(s) => s != ""
    case JArr(items) => items != []
    case JObj(fields) => fields != []
  }

  /** The keys of a dict, as the strings iterating it yields. */
  function KeyStrings(fields: Fields): (r: seq<Json>)
    ensures |r| == |fields|
    ensures forall i :: 0 <= i < |r| ==> r[i] == JStr(fields[i].0)
  {
    seq(|fields|, i requires 0 <= i < |fields| => JStr(fields[i].0))
  }

  /** The characters of a string, as the one-character strings iterating it yields. */
  function CharStrings(s: string): (r: seq<Json>)
    ensures |r| == |s|
    ensures forall i :: 0 <= i < |r| ==> r[i] == JStr([s[i]])
  {
    seq(|s|, i requires 0 <= i < |s| => JStr([s[i]]))
  }

  /** `list(x)`: a list yields its items, a dict its keys, a string its
      characters; anything else is not iterable. */
  function Iterate(j: Json): Result<seq<Json>> {
    match j
    case JArr(items) => Ok(items)
    case JObj(fields) => Ok(KeyStrings(fields))
    case JStr(s) => Ok(CharStrings(s))
    case _ => Err(TypeError)
  }

  /** `len(x)` agrees with the number of items iteration yields, and fails
      exactly where iteration fails. */
  function PyLen(j: Json): (r: Result<nat>)
    ensures r.Ok? <==> Iterate(j).Ok?
    ensures r.Ok? ==> r.value == |Iterate(j).value|
  {
    match j
    case JArr(items) => Ok(|items|)
    case JObj(fields) => Ok(|fields|)
    case JStr(s) => Ok(|s|)
    case _ => Err(TypeError)
  }

  /** `x.get(k, default)`: only dicts have `get`. */
  function GetOr(j: Json, k: string, default: Json): (r: Result<Json>)
    ensures r.Ok? <==> j.JObj?
    ensures j.JObj? && HasKey(j.fields, k) ==> r == Ok(Lookup(j.fields, k).value)
    ensures j.JObj? && !HasKey(j.fields, k) ==> r == Ok(default)
  {
    match j
    case JObj(fields) => Ok(Lookup(fields, k).GetOr(default))
    case _ => Err(AttributeError)
  }

  /** `x[k]` with a string key: a dict without `k` raises KeyError, a
      non-dict raises TypeError. */
  function Subscript(j: Json, k: string): (r: Result<Json>)
    ensures r.Ok? <==> j.JObj? && HasKey(j.fields, k)
    ensures r.Ok? ==> Lookup(j.fields, k) == Some(r.value)
    ensures j.JObj? && !HasKey(j.fields, k) ==> r == Err(KeyError)
    ensures !j.JObj? ==> r == Err(TypeError)
  {
    match j
    case JObj(fields) => if HasKey(fields, k) then Ok(Lookup(fields, k).value) else Err(KeyError)
    case _ => Err(TypeError)
  }

  /** `k in x` with a string `k`: key test on a dict, element test on a
      list, substring test on a string, TypeError otherwise. */
  function ContainsStr(j: Json, k: string): Result<bool> {
    match j
    case JObj(fields) => Ok(HasKey(fields, k))
    case JArr(items) => Ok(JStr(k) in items)
    case JStr(s) => Ok(Occurs(s, k))
    case _ => Err(TypeError)
  }

  /** `repr(x)` as an f-string shows a value nested inside a container
      (string quoting without escape sequences). */
  function Repr(j: Json): string {
    match j
    case JNull => "None"
    case JBool(b) => if b then "True" else "False"
    case JInt(i) => IntToString(i)
    case JStr(s) => "'" + s + "'"
    case JArr(items) =>
      "[" + JoinWith(", ", seq(|items|, i requires 0 <= i < |items| => Repr(items[i]))) + "]"
    case JObj(fields) =>
      "{" + JoinWith(", ", seq(|fields|, i requires 0 <= i < |fields| =>
                                  "'" + fields[i].0 + "': " + Repr(fields[i].1))) + "}"
  }

  /** `str(x)`, what `f"{x}"` inserts: a string as itself, anything else as its repr. */
  function PyStr(j: Json): string {
    match j
    case JStr(s) => s
    case _ => Repr(j)
  }

  /** `f"{type(x)}"` */
  function TypeName(j: Json): string {
    match j
    case JNull => "<class 'NoneType'>"
    case JBool(_) => "<class 'bool'>"
    case JInt(_) => "<class 'int'>"
    case JStr(_) => "<class 'str'>"
    case JArr(_) => "<class 'list'>"
    case JObj(_) => "<class 'dict'>"
  }

  /** A JSON text codec: `dumps(x, ensureAscii)` is `json.dumps(x, ensure_ascii=...)`
      and `loads` is `json.loads`, absent on a decoding error. */
  datatype Codec = Codec(dumps: (Json, bool) -> string, loads: string -> Option<Json>)

  /** Every object, at any depth, holds each key once: the shape of every
      value Python builds, since a dict cannot hold a key twice. */
  predicate DistinctKeys(j: Json) {
    match j
    case JArr(items) => forall i :: 0 <= i < |items| ==> DistinctKeys(items[i])
    case JObj(fields) =>
      && (forall i, k :: 0 <= i < k < |fields| ==> fields[i].0 != fields[k].0)
      && (forall i :: 0 <= i < |fields| ==> DistinctKeys(fields[i].1))
    case _ => true
  }

  /** What RFC 8259 serialisation guarantees: an encoded value is one line
      without surrounding whitespace (newlines inside strings are escaped),
      and decoding undoes encoding for every value without repeated keys.
      An object that repeats a key is encoded with each occurrence, and
      `json.loads` keeps only the last, so no round trip is demanded there. */
  ghost predicate LawfulCodec(c: Codec) {
    forall j, a :: Framed(c.dumps(j, a)) && (DistinctKeys(j) ==> c.loads(c.dumps(j, a)) == Some(j))
  }
}

=== FILE: results.dfy ===
/** Failure-compatible wrappers shared by every module of the model.

    The modelled program reports failures by raising Python exceptions; here
    each exception class that the core can raise becomes one `Error` value and
    every operation that can raise returns a `Result`.
 */
module Results {

  datatype Option<T> = None | Some(value: T) {

    /** The wrapped value, or `default` when there is none (Python's `dict.get(k, default)`). */
    function GetOr(default: T): T {
      match this
      case Some(v) => v
      case None => default
    }
  }

  /** The Python exception classes the modelled core can raise. */
  datatype Error =
    | KeyError
    | TypeError
    | AttributeError
    | IndexError
    | ValueError(message: string)
    | FileNotFoundError
    | FileExistsError
    | IsADirectoryError
    | NotADirectoryError
    | JsonDecodeError
    | RuntimeError

  datatype Result<T> = Ok(value: T) | Err(error: Error) {

    predicate IsFailure() {
      Err?
    }

    function PropagateFailure<U>(): Result<U>
      requires Err?
    {
      Err(error)
    }

    function Extract(): T
      requires Ok?
    {
      value
    }
  }
}

=== FILE: testcases.dfy ===
/** The test-case register of the evaluation harness: named categories
    holding test functions, the decorator that files a test under
    categories, the queries over the register, and the helper that checks
    whether any of a list of devices is switched on.

    Test functions are values of a type parameter `T` compared by identity.
 */
module TestCases {
  import opened Results
  import opened Assoc
  import opened PyJson

  /** `TEST_REGISTER`: category name to the set of tests filed under it, in
      insertion order. */
  type Register<T> = seq<(string, set<T>)>

  /** The categories of `TEST_REGISTER`, in order. */
  const Categories: seq<string> := ["device_resolution", "personalization", "persistence", "intent_resolution",
                                    "command_chaining", "simple", "test_set", "human_interaction", "google"]

  /** Keys of a dict are distinct. */
  predicate DistinctKeys<T>(reg: Register<T>) {
    forall i, j :: 0 <= i < j < |reg| ==> reg[i].0 != reg[j].0
  }

  /** The register as the module defines it: every category, empty. */
  function InitialRegister<T>(): (r: Register<T>)
    ensures |r| == |Categories| && DistinctKeys(r)
    ensures forall i :: 0 <= i < |r| ==> r[i] == (Categories[i], {})
  {
    seq(|Categories|, i requires 0 <= i < |Categories| => (Categories[i], {}))
  }

  /** The tests filed under `name`, none when there is no such category. */
  function Members<T>(reg: Register<T>, name: string): set<T> {
    match Lookup(reg, name)
    case Some(s) => s
    case None => {}
  }

  /** `register(names)(f)`: adds `f` to the category of each name in turn.
      An unknown name raises KeyError, and the categories already visited
      keep `f`. */
  function RegisterTest<T>(reg: Register<T>, names: seq<string>, f: T): (r: (Register<T>, Result<()>))
    ensures |r.0| == |reg| && forall i :: 0 <= i < |reg| ==> r.0[i].0 == reg[i].0
    ensures r.1.Err? ==> r.1.error == KeyError
    decreases |names|
  {
    if |names| == 0 then (reg, Ok(()))
    else
      match Lookup(reg, names[0])
      case None => (reg, Err(KeyError))
      case Some(s) => RegisterTest(Assign(reg, names[0], s + {f}), names[1..], f)
  }

  /** Registering succeeds exactly when every name is a category. */
  lemma {:induction false} RegisterTestOk<T>(reg: Register<T>, names: seq<string>, f: T)
    ensures RegisterTest(reg, names, f).1.Ok? <==> forall i :: 0 <= i < |names| ==> HasKey(reg, names[i])
    decreases |names|
  {
    if |names| > 0 && HasKey(reg, names[0]) {
      var reg1 := Assign(reg, names[0], Lookup(reg, names[0]).value + {f});
      var tail := names[1..];
      assert RegisterTest(reg, names, f) == RegisterTest(reg1, tail, f);
      RegisterTestOk(reg1, tail, f);
      forall i | 0 <= i < |tail|
        ensures HasKey(reg1, tail[i]) <==> HasKey(reg, tail[i])
      {
        AssignHasKey(reg, names[0], Lookup(reg, names[0]).value + {f}, tail[i]);
      }
      if forall i :: 0 <= i < |tail| ==> HasKey(reg, tail[i]) {
        forall i | 1 <= i < |names|
          ensures HasKey(reg, names[i])
        {
          assert names[i] == tail[i - 1];
        }
      }
      if forall i :: 0 <= i < |names| ==> HasKey(reg, names[i]) {
        forall i | 0 <= i < |tail|
          ensures HasKey(reg, tail[i])
        {
          assert tail[i] == names[i + 1];
        }
      }
    }
  }

  /** A successful registration adds `f` to the named categories and to no
      other. */
  lemma {:induction false} RegisterTestMembers<T>(reg: Register<T>, names: seq<string>, f: T)
    requires RegisterTest(reg, names, f).1.Ok?
    ensures forall k :: Members(RegisterTest(reg, names, f).0, k) == Members(reg, k) + (if k in names then {f} else {})
    decreases |names|
  {
    if |names| > 0 {
      var s := Lookup(reg, names[0]).value;
      var reg1 := Assign(reg, names[0], s + {f});
      RegisterTestMembers(reg1, names[1..], f);
      forall k
        ensures Members(RegisterTest(reg, names, f).0, k) == Members(reg, k) + (if k in names then {f} else {})
      {
        assert Members(reg1, k) == Members(reg, k) + (if k == names[0] then {f} else {});
        assert k in names <==> k == names[0] || k in names[1..];
      }
    }
  }

  /** The positions, from `from` on and ascending, of the categories whose
      set holds `test`. */
  function HoldingFrom<T>(reg: Register<T>, test: T, from: nat): (idx: seq<nat>)
    requires from <= |reg|
    ensures forall k :: 0 <= k < |idx| ==> from <= idx[k] < |reg| && test in reg[idx[k]].1
    ensures forall k, l :: 0 <= k < l < |idx| ==> idx[k] < idx[l]
    ensures forall i :: from <= i < |reg| && test in reg[i].1 ==> i in idx
    decreases |reg| - from
  {
    if from == |reg| then []
    else if test in reg[from].1 then [from] + HoldingFrom(reg, test, from + 1)
    else HoldingFrom(reg, test, from + 1)
  }

  /** The loop of `get_test_challenges` from position `from` on. */
  function ChallengesFrom<T>(reg: Register<T>, test: T, from: nat): (r: seq<string>)
    requires from <= |reg|
    ensures |r| == |HoldingFrom(reg, test, from)|
    ensures forall k :: 0 <= k < |r| ==> r[k] == reg[HoldingFrom(reg, test, from)[k]].0
    decreases |reg| - from
  {
    if from == |reg| then []
    else
      var rest := ChallengesFrom(reg, test, from + 1);
      if test in reg[from].1 then [reg[from].0] + rest else rest
  }

  /** `get_test_challenges(test_name)`: the names of exactly the categories
      whose set holds `test`, in register order. */
  function GetTestChallenges<T>(reg: Register<T>, test: T): (r: seq<string>)
    ensures var idx := HoldingFrom(reg, test, 0);
      |r| == |idx| && forall k :: 0 <= k < |r| ==> r[k] == reg[idx[k]].0
    ensures forall c :: c in r <==> exists i :: 0 <= i < |reg| && reg[i].0 == c && test in reg[i].1
  {
    var r := ChallengesFrom(reg, test, 0);
    var idx := HoldingFrom(reg, test, 0);
    assert forall k :: 0 <= k < |r| ==> r[k] == reg[idx[k]].0 && test in reg[idx[k]].1;
    forall i | 0 <= i < |reg| && test in reg[i].1
      ensures reg[i].0 in r
    {
      var k :| 0 <= k < |idx| && idx[k] == i;
      assert r[k] == reg[i].0;
    }
    r
  }

  /** In a register with distinct keys, the challenges of a test are the
      categories whose set holds it. */
  lemma ChallengesAreMembership<T>(reg: Register<T>, test: T, c: string)
    requires DistinctKeys(reg)
    ensures c in GetTestChallenges(reg, test) <==> HasKey(reg, c) && test in Members(reg, c)
  {
    if HasKey(reg, c) {
      var i :| 0 <= i < |reg| && reg[i] == (c, Lookup(reg, c).value);
      assert forall j :: 0 <= j < |reg| && reg[j].0 == c ==> j == i;
    }
  }

  /** Registering a test files it under exactly the named categories: its
      challenges afterwards are the ones it had plus the names. */
  lemma RegisterThenChallenges<T>(reg: Register<T>, names: seq<string>, f: T, c: string)
    requires DistinctKeys(reg)
    requires RegisterTest(reg, names, f).1.Ok?
    ensures c in GetTestChallenges(RegisterTest(reg, names, f).0, f) <==> c in names || c in GetTestChallenges(reg, f)
  {
    var reg1 := RegisterTest(reg, names, f).0;
    RegisterTestOk(reg, names, f);
    RegisterTestMembers(reg, names, f);
    assert DistinctKeys(reg1);
    ChallengesAreMembership(reg, f, c);
    ChallengesAreMembership(reg1, f, c);
    assert HasKey(reg1, c) <==> HasKey(reg, c);
    if c in names {
      var i :| 0 <= i < |names| && names[i] == c;
      assert HasKey(reg, names[i]);
    }
  }

  const Union: string := "union"
  const Intersection: string := "intersection"

  /** The loop of `get_tests` over the remaining names: union or
      intersection with each named category; any other combination leaves
      the selection unchanged and looks nothing up. */
  function Combine<T(!new)>(reg: Register<T>, tests: set<T>, rest: seq<string>, combination: string): (r: Result<set<T>>)
    decreases |rest|
    ensures combination != Union && combination != Intersection ==> r == Ok(tests)
    ensures combination == Union || combination == Intersection ==>
      (r.Ok? <==> forall i :: 0 <= i < |rest| ==> HasKey(reg, rest[i]))
    ensures r.Err? ==> r.error == KeyError
    ensures combination == Union && r.Ok? ==>
      forall t :: t in r.value <==> t in tests || exists i :: 0 <= i < |rest| && t in Members(reg, rest[i])
    ensures combination == Intersection && r.Ok? ==>
      forall t :: t in r.value <==> t in tests && forall i :: 0 <= i < |rest| ==> t in Members(reg, rest[i])
  {
    if |rest| == 0 then Ok(tests)
    else if combination == Union then
      match Lookup(reg, rest[0])
      case None => Err(KeyError)
      case Some(s) =>
        assert forall i :: 1 <= i < |rest| ==> rest[i] == rest[1..][i - 1];
        Combine(reg, tests + s, rest[1..], combination)
    else if combination == Intersection then
      match Lookup(reg, rest[0])
      case None => Err(KeyError)
      case Some(s) =>
        assert forall i :: 1 <= i < |rest| ==> rest[i] == rest[1..][i - 1];
        Combine(reg, tests * s, rest[1..], combination)
    else Combine(reg, tests, rest[1..], combination)
  }

  /** `get_tests(test_class_list, combination)`: the tests of the first
      category, combined with the other categories by union or intersection.
      An empty list raises IndexError and an unknown category KeyError. The
      order of the returned list is not modelled: the result is a set. */
  function GetTests<T(!new)>(reg: Register<T>, names: seq<string>, combination: string): (r: Result<set<T>>)
    ensures |names| == 0 ==> r == Err(IndexError)
    ensures |names| > 0 && !HasKey(reg, names[0]) ==> r == Err(KeyError)
    ensures |names| > 0 && HasKey(reg, names[0]) ==>
      r == Combine(reg, Members(reg, names[0]), names[1..], combination)
  {
    if |names| == 0 then Err(IndexError)
    else
      match Lookup(reg, names[0])
      case None => Err(KeyError)
      case Some(s) => Combine(reg, s, names[1..], combination)
  }

  /** A union selects the tests filed under any of the categories. */
  lemma GetTestsUnion<T(!new)>(reg: Register<T>, names: seq<string>, t: T)
    requires GetTests(reg, names, Union).Ok?
    ensures t in GetTests(reg, names, Union).value <==> exists i :: 0 <= i < |names| && t in Members(reg, names[i])
  {
    assert forall i :: 1 <= i < |names| ==> names[i] == names[1..][i - 1];
    if exists i :: 0 <= i < |names| && t in Members(reg, names[i]) {
      var i :| 0 <= i < |names| && t in Members(reg, names[i]);
      if i > 0 {
        assert names[1..][i - 1] == names[i];
      }
    }
  }

  /** An intersection selects the tests filed under every one of the categories. */
  lemma GetTestsIntersection<T(!new)>(reg: Register<T>, names: seq<string>, t: T)
    requires GetTests(reg, names, Intersection).Ok?
    ensures t in GetTests(reg, names, Intersection).value <==> forall i :: 0 <= i < |names| ==> t in Members(reg, names[i])
  {
    assert forall i :: 0 <= i < |names| - 1 ==> names[1..][i] == names[i + 1];
    assert forall i :: 1 <= i < |names| ==> names[i] == names[1..][i - 1];
  }

  /* ---------- check_status_on ---------- */

  /** `j[k0][k1]...`: subscripting with each key in turn. */
  function SubscriptPath(j: Json, keys: seq<string>): (r: Result<Json>)
    ensures r.Err? ==> r.error in {KeyError, TypeError}
    decreases |keys|
  {
    if |keys| == 0 then Ok(j)
    else
      var v :- Subscript(j, keys[0]);
      SubscriptPath(v, keys[1..])
  }

  /** `device_state[device]["main"]["switch"]["switch"]["value"]`. */
  function SwitchValue(state: Json, device: string): (r: Result<Json>)
    ensures r.Err? ==> r.error in {KeyError, TypeError}
  {
    SubscriptPath(state, [device, "main", "switch", "switch", "value"])
  }

  /** The device's switch reads "on". */
  predicate IsOn(state: Json, device: string) {
    SwitchValue(state, device) == Ok(JStr("on"))
  }

  /** The first `n` devices can all be read and none of them is on. */
  predicate AllOff(state: Json, devices: seq<string>, n: int)
    requires n <= |devices|
  {
    forall j :: 0 <= j < n ==> SwitchValue(state, devices[j]).Ok? && !IsOn(state, devices[j])
  }

  /** Once device `i` is unreadable or on, no longer prefix is all off. */
  lemma AllOffStopsAt(state: Json, devices: seq<string>, i: int)
    requires 0 <= i < |devices|
    requires SwitchValue(state, devices[i]).Err? || IsOn(state, devices[i])
    ensures forall k :: i < k <= |devices| ==> !AllOff(state, devices, k)
  {
    forall k | i < k <= |devices|
      ensures !AllOff(state, devices, k)
    {
      assert !(SwitchValue(state, devices[i]).Ok? && !IsOn(state, devices[i]));
    }
  }

  /** `check_status_on(device_state, device_id_list)`: true as soon as a
      device reads "on", false when all were read and none is; a device
      whose state cannot be read before that raises. */
  method CheckStatusOn(state: Json, devices: seq<string>) returns (r: Result<bool>)
    ensures r == Ok(false) <==> AllOff(state, devices, |devices|)
    ensures r == Ok(true) <==> exists i :: 0 <= i < |devices| && AllOff(state, devices, i) && IsOn(state, devices[i])
    ensures r.Err? <==> exists i :: 0 <= i < |devices| && AllOff(state, devices, i) && SwitchValue(state, devices[i]).Err?
    ensures r.Err? ==> r.error in {KeyError, TypeError}
  {
    var i := 0;
    while i < |devices|
      invariant 0 <= i <= |devices| && AllOff(state, devices, i)
    {
      var v := SwitchValue(state, devices[i]);
      if v.Err? {
        AllOffStopsAt(state, devices, i);
        return Err(v.error);
      }
      if v.value == JStr("on") {
        AllOffStopsAt(state, devices, i);
        return Ok(true);
      }
      i := i + 1;
    }
    return Ok(false);
  }
}

=== FILE: text.dfy ===
/** Python `str` behaviour the core relies on: substring search, prefix and
    suffix tests, `strip`, splitting a text file into lines, `"sep".join`,
    `str(int)` and ASCII `lower`.
 */
module Text {

  /** `t[i:i+len(s)] == s`, with the slice inside `t`. */
  predicate IsMatchAt(t: string, s: string, i: int) {
    0 <= i && i + |s| <= |t| && t[i..i + |s|] == s
  }

  /** Python's `s in t` for two strings. */
  predicate Occurs(t: string, s: string) {
    exists i :: 0 <= i <= |t| && IsMatchAt(t, s, i)
  }

  /** `t.startswith(p)` */
  predicate StartsWith(t: string, p: string) {
    |p| <= |t| && t[..|p|] == p
  }

  /** `t.endswith(p)` */
  predicate EndsWith(t: string, p: string) {
    |p| <= |t| && t[|t| - |p|..] == p
  }

  /** The characters `str.isspace()` accepts among the Latin-1 range. */
  predicate IsSpace(c: char) {
    ('\t' <= c <= '\r') || c == ' ' || ('\U{001C}' <= c <= '\U{001F}')
    || c == '\U{0085}' || c == '\U{00A0}'
  }

  /** `s.lstrip()`: the longest suffix of `s` that does not start with whitespace. */
  function LStrip(s: string): (r: string)
    ensures |r| <= |s| && r == s[|s| - |r|..]
    ensures forall k :: 0 <= k < |s| - |r| ==> IsSpace(s[k])
    ensures |r| > 0 ==> !IsSpace(r[0])
  {
    if |s| > 0 && IsSpace(s[0]) then LStrip(s[1..]) else s
  }

  /** `s.rstrip()`: the longest prefix of `s` that does not end with whitespace. */
  function RStrip(s: string): (r: string)
    ensures |r| <= |s| && r == s[..|r|]
    ensures forall k :: |r| <= k < |s| ==> IsSpace(s[k])
    ensures |r| > 0 ==> !IsSpace(r[|r| - 1])
  {
    if |s| > 0 && IsSpace(s[|s| - 1]) then RStrip(s[..|s| - 1]) else s
  }

  /** `s.strip()` */
  function Strip(s: string): (r: string)
  {
    RStrip(LStrip(s))
  }

  /** A string that `strip` leaves alone and that holds no line break:
      what one serialised JSON value looks like. */
  predicate Framed(s: string) {
    |s| > 0 && '\n' !in s && !IsSpace(s[0]) && !IsSpace(s[|s| - 1])
  }

  /** Stripping a stored line gives back the framed text written before its newline. */
  lemma StripTerminated(x: string)
    requires Framed(x)
    ensures Strip(x + "\n") == x
  {
    var y := x + "\n";
    assert LStrip(y) == y by {
      assert !IsSpace(y[0]);
    }
    var r := RStrip(y);
    assert y[|x| - 1] == x[|x| - 1] && !IsSpace(y[|x| - 1]);
    assert IsSpace(y[|x|]);
    assert |r| == |x|;
    assert r == y[..|x|] == x;
  }

  /** The string a sequence of parts concatenates to. */
  function Concat(parts: seq<string>): string {
    if |parts| == 0 then "" else parts[0] + Concat(parts[1..])
  }

  /** Length of the first line of `s` as a text-mode file iterator yields it:
      up to and including the first newline, or all of `s` if it has none. */
  function LineEnd(s: string): (n: nat)
    requires |s| > 0
    ensures 1 <= n <= |s|
    ensures forall k :: 0 <= k < n - 1 ==> s[k] != '\n'
    ensures n < |s| ==> s[n - 1] == '\n'
  {
    if s[0] == '\n' || |s| == 1 then 1 else 1 + LineEnd(s[1..])
  }

  /** `list(open(path))`: the lines of a file, each keeping its newline; the last
      line lacks one when the file does not end in a newline. */
  function SplitLines(s: string): (lines: seq<string>)
    ensures Concat(lines) == s
    ensures forall i :: 0 <= i < |lines| ==> |lines[i]| > 0
    decreases |s|
  {
    if |s| == 0 then [] else
      var n := LineEnd(s);
      assert s == s[..n] + s[n..];
      [s[..n]] + SplitLines(s[n..])
  }

  /** Each text followed by a newline: what `f.write(text + "\n")` leaves in a file. */
  function Terminate(xs: seq<string>): (ys: seq<string>)
  {
    seq(|xs|, i requires 0 <= i < |xs| => xs[i] + "\n")
  }

  lemma LineEndTerminated(x: string, rest: string)
    requires '\n' !in x
    ensures LineEnd(x + "\n" + rest) == |x| + 1
  {
    var s := x + "\n" + rest;
    assert forall k :: 0 <= k < |x| ==> s[k] == x[k];
    assert s[|x|] == '\n';
  }

  /** Reading back a file made of newline-terminated lines yields exactly those lines. */
  lemma {:induction false} SplitTerminated(xs: seq<string>)
    requires forall i :: 0 <= i < |xs| ==> '\n' !in xs[i]
    ensures SplitLines(Concat(Terminate(xs))) == Terminate(xs)
  {
    if |xs| > 0 {
      var t := Terminate(xs);
      assert Terminate(xs[1..]) == t[1..];
      var rest := Concat(t[1..]);
      assert Concat(t) == xs[0] + "\n" + rest;
      LineEndTerminated(xs[0], rest);
      var s := xs[0] + "\n" + rest;
      assert s[..|xs[0]| + 1] == t[0];
      assert s[|xs[0]| + 1..] == rest;
      SplitTerminated(xs[1..]);
    }
  }

  /** `sep.join(parts)` */
  function JoinWith(sep: string, parts: seq<string>): string {
    if |parts| == 0 then ""
    else if |parts| == 1 then parts[0]
    else parts[0] + sep + JoinWith(sep, parts[1..])
  }

  /** A text begins with what was put in front of it. */
  lemma StartsWithConcat(p: string, x: string)
    ensures StartsWith(p + x, p)
  {
    assert (p + x)[..|p|] == p;
  }

  /** A text ends with what was put after it. */
  lemma EndsWithConcat(x: string, q: string)
    ensures EndsWith(x + q, q)
  {
    assert (x + q)[|x|..] == q;
  }

  /** A suffix survives putting text in front. */
  lemma EndsWithExtend(a: string, t: string, q: string)
    requires EndsWith(t, q)
    ensures EndsWith(a + t, q)
  {
    assert (a + t)[|a + t| - |q|..] == t[|t| - |q|..];
  }

  /** A string occurs in any text that has it between a prefix and a suffix. */
  lemma OccursBetween(a: string, x: string, c: string)
    ensures Occurs(a + x + c, x)
  {
    assert (a + x + c)[|a|..|a| + |x|] == x;
    assert IsMatchAt(a + x + c, x, |a|);
  }

  /** The same, for a text grouped from the right. */
  lemma OccursInside(a: string, x: string, c: string)
    ensures Occurs(a + (x + c), x)
  {
    assert (a + (x + c))[|a|..|a| + |x|] == x;
    assert IsMatchAt(a + (x + c), x, |a|);
  }

  /** An occurrence survives putting text in front. */
  lemma OccursAfterPrefix(a: string, t: string, x: string)
    requires Occurs(t, x)
    ensures Occurs(a + t, x)
  {
    var i :| 0 <= i <= |t| && IsMatchAt(t, x, i);
    assert (a + t)[|a| + i..|a| + i + |x|] == t[i..i + |x|];
    assert IsMatchAt(a + t, x, |a| + i);
  }

  /** Every part occurs in what `sep.join(parts)` builds. */
  lemma {:induction false} JoinWithContains(sep: string, parts: seq<string>, k: nat)
    requires k < |parts|
    ensures Occurs(JoinWith(sep, parts), parts[k])
    decreases |parts|
  {
    if |parts| == 1 {
      OccursBetween("", parts[0], "");
      assert "" + parts[0] + "" == parts[0];
    } else if k == 0 {
      OccursBetween("", parts[0], sep + JoinWith(sep, parts[1..]));
      assert "" + parts[0] + (sep + JoinWith(sep, parts[1..])) == JoinWith(sep, parts);
    } else {
      JoinWithContains(sep, parts[1..], k - 1);
      OccursAfterPrefix(parts[0] + sep, JoinWith(sep, parts[1..]), parts[k]);
      assert (parts[0] + sep) + JoinWith(sep, parts[1..]) == JoinWith(sep, parts);
    }
  }

  function Digit(d: nat): char
    requires d < 10
  {
    (48 + d) as char
  }

  function DigitValue(c: char): nat {
    if '0' <= c <= '9' then c as int - 48 else 0
  }

  /** `str(n)` for a non-negative integer: its decimal digits. */
  function NatToString(n: nat): (r: string)
    ensures |r| > 0
    ensures forall k :: 0 <= k < |r| ==> '0' <= r[k] <= '9'
    decreases n
  {
    if n < 10 then [Digit(n)] else NatToString(n / 10) + [Digit(n % 10)]
  }

  /** `int(s)` for a string of decimal digits. */
  function ParseDigits(s: string): nat {
    if |s| == 0 then 0 else ParseDigits(s[..|s| - 1]) * 10 + DigitValue(s[|s| - 1])
  }

  lemma {:induction false} ParseNatToString(n: nat)
    ensures ParseDigits(NatToString(n)) == n
    decreases n
  {
    var r := NatToString(n);
    if n >= 10 {
      ParseNatToString(n / 10);
      assert r[..|r| - 1] == NatToString(n / 10);
    }
  }

  /** Distinct numbers print differently. */
  lemma NatToStringInjective(a: nat, b: nat)
    ensures NatToString(a) == NatToString(b) ==> a == b
  {
    ParseNatToString(a);
    ParseNatToString(b);
  }

  /** `str(i)` for any integer. */
  function IntToString(i: int): string {
    if i < 0 then "-" + NatToString(-i) else NatToString(i)
  }

  function LowerChar(c: char): char {
    if 'A' <= c <= 'Z' then (c as int + 32) as char else c
  }

  /** `s.lower()` restricted to ASCII letters. */
  function Lower(s: string): (r: string)
    ensures |r| == |s|
    ensures forall k :: 0 <= k < |r| ==> !('A' <= r[k] <= 'Z')
  {
    seq(|s|, i requires 0 <= i < |s| => LowerChar(s[i]))
  }
}

=== FILE: vectordb.dfy ===
/** Building and reopening the vector stores behind the memory banks, over
    the abstract filesystem. A store is identified by where it persists and
    holds the texts a similarity search ranges over; embeddings and the
    similarity ranking itself are not modelled.
 */
module VectorDb {
  import opened Results
  import opened Text
  import opened PyJson
  import opened FileSystem

  datatype Backend = Chroma | Faiss

  /** A vector store: its backend, the key it persists under, and its texts. */
  datatype Store = Store(backend: Backend, location: string, texts: seq<Json>)

  /** What `create_multiuser_vector_indexes` returns: one store for a list of
      documents, a dict of stores, one per user, for a dict of documents. */
  datatype Indexed = Single(store: Store) | PerUser(stores: seq<(string, Store)>)

  /** The texts persisted under `key`, none when nothing was persisted there. */
  function Persisted(fs: Fs, key: string): seq<Json> {
    if key in fs.indexes then fs.indexes[key] else []
  }

  /** `Chroma(persist_directory=d)`: the collection persisted at `d`, opened
      without changing anything (empty when nothing is persisted there). */
  function OpenChroma(fs: Fs, d: string): Store {
    Store(Chroma, d, Persisted(fs, d))
  }

  /** `Chroma.from_texts` / `Chroma.from_documents` with `persist_directory=d`:
      the texts are added to the collection already persisted at `d`, and the
      directory exists afterwards. */
  function AddToChroma(fs: Fs, d: string, texts: seq<Json>): (r: (Fs, Store))
    ensures r.1 == Store(Chroma, d, Persisted(fs, d) + texts)
    ensures r.0.indexes == fs.indexes[d := r.1.texts]
    ensures r.0.dirs == fs.dirs + {d} && r.0.files == fs.files
  {
    var all := Persisted(fs, d) + texts;
    (fs.(dirs := fs.dirs + {d}, indexes := fs.indexes[d := all]), Store(Chroma, d, all))
  }

  /** `build_chroma_db(vector_dir, documents, embeddings, load)`: an existing
      directory is reopened when `load` holds; otherwise the documents are
      added to the store at `vector_dir`, after wiping the directory first
      when `load` is false. */
  function BuildChromaDb(fs: Fs, vectorDir: string, documents: seq<Json>, load: bool): (r: (Fs, Store))
    ensures r.1.backend == Chroma && r.1.location == vectorDir
    ensures load && vectorDir in fs.dirs ==> r.0 == fs && r.1.texts == Persisted(fs, vectorDir)
    ensures load && vectorDir !in fs.dirs ==> r.1.texts == Persisted(fs, vectorDir) + documents
    ensures !load && vectorDir in fs.dirs ==> r.1.texts == documents
    ensures !load && vectorDir !in fs.dirs ==> r.1.texts == Persisted(fs, vectorDir) + documents
    ensures vectorDir in r.0.dirs && Persisted(r.0, vectorDir) == r.1.texts
    ensures forall k :: !Under(k, vectorDir) ==> (k in r.0.indexes <==> k in fs.indexes)
    ensures forall k :: !Under(k, vectorDir) && k in r.0.indexes ==> r.0.indexes[k] == fs.indexes[k]
    ensures forall p :: !Under(p, vectorDir) ==> (p in r.0.dirs <==> p in fs.dirs)
    ensures forall p :: !Under(p, vectorDir) ==> (p in r.0.files <==> p in fs.files)
    ensures forall p :: p in r.0.files ==> p in fs.files && r.0.files[p] == fs.files[p]
  {
    if vectorDir in fs.dirs && load then (fs, OpenChroma(fs, vectorDir))
    else
      var wiped := if !load && vectorDir in fs.dirs then RmTree(fs, vectorDir) else fs;
      assert !load && vectorDir in fs.dirs ==> Persisted(wiped, vectorDir) == [];
      AddToChroma(wiped, vectorDir, documents)
  }

  /** Reopening a Chroma store that was just rebuilt gives back exactly the
      store the rebuild returned, and changes nothing. */
  lemma ChromaRebuildThenReopen(fs: Fs, vectorDir: string, documents: seq<Json>, more: seq<Json>)
    ensures var (fs1, built) := BuildChromaDb(fs, vectorDir, documents, false);
      BuildChromaDb(fs1, vectorDir, more, true) == (fs1, built)
  {
  }

  /** Where `FAISS.load_local("smartie-index", ...)` reads from: index
      `index` in folder `smartie-index`, whatever directory was asked for. */
  const FaissLoadKey: string := "smartie-index/index"

  /** The index name `save_local` writes under. */
  const FaissIndexName: string := "sage-index"

  /** `p` is a direct child of `dir` whose name matches `sage-index.*`. */
  predicate GlobMatch(dir: string, p: string) {
    var prefix := PathJoin(dir, FaissIndexName + ".");
    StartsWith(p, prefix) && '/' !in p[|prefix|..]
  }

  /** `for f in Path(dir).glob("sage-index.*"): f.unlink()`: a matching
      directory cannot be unlinked; otherwise every matching file goes, and so
      does the index whose two files (`.faiss` and `.pkl`) match. */
  function UnlinkGlob(fs: Fs, dir: string): (r: Result<Fs>)
    ensures r.Ok? <==> forall p :: p in fs.dirs ==> !GlobMatch(dir, p)
    ensures r.Ok? ==> forall p :: p in r.value.files <==> p in fs.files && !GlobMatch(dir, p)
    ensures r.Ok? ==> forall p :: p in r.value.files ==> r.value.files[p] == fs.files[p]
    ensures r.Ok? ==> r.value.indexes == fs.indexes - {PathJoin(dir, FaissIndexName)}
  {
    if exists p :: p in fs.dirs && GlobMatch(dir, p) then Err(IsADirectoryError)
    else Ok(fs.(files := map p | p in fs.files && !GlobMatch(dir, p) :: fs.files[p],
                indexes := fs.indexes - {PathJoin(dir, FaissIndexName)}))
  }

  /** `build_faiss_db(vector_dir, documents, embeddings, load)`: with `load`
      and an existing directory the fixed folder `smartie-index` is read
      (RuntimeError when nothing is there); otherwise, after unlinking the old
      `sage-index.*` files when `load` is false, a fresh index of the
      documents (IndexError for none) is saved as `vector_dir/sage-index`.
      The two files `save_local` writes, `sage-index.faiss` and
      `sage-index.pkl`, are not kept as files: the saved index is the entry
      of `fs.indexes` under that stem. */
  function BuildFaissDb(fs: Fs, vectorDir: string, documents: seq<Json>, load: bool): (r: Result<(Fs, Store)>)
    ensures load && vectorDir in fs.dirs ==>
      (r.Ok? <==> FaissLoadKey in fs.indexes)
      && (r.Ok? ==> r.value == (fs, Store(Faiss, FaissLoadKey, fs.indexes[FaissLoadKey])))
    ensures !(load && vectorDir in fs.dirs) && r.Ok? ==>
      && documents != []
      && r.value.1 == Store(Faiss, PathJoin(vectorDir, FaissIndexName), documents)
      && Persisted(r.value.0, PathJoin(vectorDir, FaissIndexName)) == documents
    ensures !load && r.Ok? ==> forall p :: p in r.value.0.files ==> !GlobMatch(vectorDir, p)
    ensures !(load && vectorDir in fs.dirs) && documents == [] ==>
      r.Err? && (r.error == IndexError || r.error == IsADirectoryError)
  {
    if vectorDir in fs.dirs && load then
      if FaissLoadKey in fs.indexes then Ok((fs, Store(Faiss, FaissLoadKey, fs.indexes[FaissLoadKey])))
      else Err(RuntimeError)
    else
      var cleared :- if !load then UnlinkGlob(fs, vectorDir) else Ok(fs);
      if documents == [] then Err(IndexError)
      else if vectorDir in cleared.files then Err(FileExistsError)
      else
        var stem := PathJoin(vectorDir, FaissIndexName);
        var dirs := if vectorDir == "" then cleared.dirs else cleared.dirs + {vectorDir};
        Ok((cleared.(dirs := dirs, indexes := cleared.indexes[stem := documents]), Store(Faiss, stem, documents)))
  }

  /** Loading a FAISS store never reads the index that building one wrote:
      the load path is the fixed `smartie-index` folder, so whatever `build`
      saved under `vector_dir` is not what a later `load` returns. */
  lemma FaissLoadIgnoresBuiltIndex(fs: Fs, vectorDir: string, documents: seq<Json>, more: seq<Json>)
    requires vectorDir != "" && PathJoin(vectorDir, FaissIndexName) != FaissLoadKey
    requires FaissLoadKey !in fs.indexes
    ensures var built := BuildFaissDb(fs, vectorDir, documents, false);
      built.Ok? ==> BuildFaissDb(built.value.0, vectorDir, more, true) == Err(RuntimeError)
  {
    var built := BuildFaissDb(fs, vectorDir, documents, false);
    if built.Ok? {
      var stem := PathJoin(vectorDir, FaissIndexName);
      assert built.value.0.indexes == (fs.indexes - {stem})[stem := documents];
      assert vectorDir in built.value.0.dirs || vectorDir == "";
    }
  }

  /** `os.path.join` accepts only strings. */
  function PathPart(j: Json): (r: Result<string>)
    ensures r.Ok? <==> j.JStr?
    ensures r.Ok? ==> r.value == j.s
    ensures r.Err? ==> r.error == TypeError
  {
    if j.JStr? then Ok(j.s) else Err(TypeError)
  }

  /** The store of one user in `create_multiuser_vector_indexes`: opened when
      `load` holds, otherwise built from the user's memories. */
  function UserStore(fs: Fs, d: string, memories: Json, load: bool): (r: Result<(Fs, Store)>)
    ensures r.Ok? ==> r.value.1.location == d && r.value.1.backend == Chroma
    ensures load ==> r == Ok((fs, OpenChroma(fs, d)))
    ensures !load ==> (r.Ok? <==> Iterate(memories).Ok?)
    ensures !load && r.Ok? ==> r.value.1.texts == Persisted(fs, d) + Iterate(memories).value
  {
    if load then Ok((fs, OpenChroma(fs, d)))
    else
      var texts :- Iterate(memories);
      Ok(AddToChroma(fs, d, texts))
  }

  /** Where the store of `user` persists: `<vectorstore path>/<user>/<db name>`. */
  function UserDir(vsPath: string, user: string, name: string): string {
    PathJoin(PathJoin(vsPath, user), name)
  }

  /** No two users' stores persist in the same directory. */
  predicate DistinctDirs(users: seq<(string, Json)>, vsPath: string, name: string) {
    forall i, j :: 0 <= i < j < |users| ==> UserDir(vsPath, users[i].0, name) != UserDir(vsPath, users[j].0, name)
  }

  /** The per-user loop of `create_multiuser_vector_indexes`: one store per
      user, in the dict's order, at `<vectorstore path>/<user>/<db name>`.
      When building, each user's memories are added to what is persisted in
      that user's directory; nothing is wiped. */
  function PerUserIndexes(fs: Fs, vsPath: string, users: seq<(string, Json)>, dbName: Json, load: bool)
    : (r: Result<(Fs, seq<(string, Store)>)>)
    ensures r.Err? ==> r.error == TypeError
    ensures r.Ok? ==> |r.value.1| == |users|
    ensures r.Ok? ==> forall i :: 0 <= i < |users| ==> r.value.1[i].0 == users[i].0
    ensures load ==> (r.Ok? <==> users == [] || dbName.JStr?)
    ensures load && r.Ok? ==> r.value.0 == fs
    decreases |users|
  {
    if users == [] then Ok((fs, []))
    else if !dbName.JStr? then Err(TypeError)
    else
      match UserStore(fs, UserDir(vsPath, users[0].0, dbName.s), users[0].1, load)
      case Err(e) => Err(e)
      case Ok((fs1, store)) =>
        match PerUserIndexes(fs1, vsPath, users[1..], dbName, load)
        case Err(e) => Err(e)
        case Ok((fs2, stores)) => Ok((fs2, [(users[0].0, store)] + stores))
  }

  /** Building succeeds exactly when every user's memories can be iterated. */
  lemma PerUserBuildSucceeds(fs: Fs, vsPath: string, users: seq<(string, Json)>, name: string)
    ensures PerUserIndexes(fs, vsPath, users, JStr(name), false).Ok?
            <==> forall i :: 0 <= i < |users| ==> Iterate(users[i].1).Ok?
  {
    PerUserBuildAllIterable(fs, vsPath, users, name);
    AllIterableEach(users);
  }

  /** One step of the build: the first user's store is built, then the
      rest of the users' stores on the filesystem it leaves. */
  lemma PerUserBuildStep(fs: Fs, vsPath: string, users: seq<(string, Json)>, name: string)
    requires users != []
    ensures var first := UserStore(fs, UserDir(vsPath, users[0].0, name), users[0].1, false);
      var r := PerUserIndexes(fs, vsPath, users, JStr(name), false);
      && (first.Err? ==> r.Err?)
      && (first.Ok? ==>
            var rest := PerUserIndexes(first.value.0, vsPath, users[1..], JStr(name), false);
            && (r.Ok? <==> rest.Ok?)
            && (r.Ok? ==> r.value == (rest.value.0, [(users[0].0, first.value.1)] + rest.value.1)))
  {
  }

  /** The users' memories can be iterated, checked front to back as the
      build loop does. */
  predicate AllIterable(users: seq<(string, Json)>)
    decreases |users|
  {
    users == [] || (Iterate(users[0].1).Ok? && AllIterable(users[1..]))
  }

  /** Building succeeds exactly when the loop gets through every user. */
  lemma {:induction false} PerUserBuildAllIterable(fs: Fs, vsPath: string, users: seq<(string, Json)>, name: string)
    ensures PerUserIndexes(fs, vsPath, users, JStr(name), false).Ok? == AllIterable(users)
    decreases |users|
  {
    if users != [] {
      PerUserBuildStep(fs, vsPath, users, name);
      var first := UserStore(fs, UserDir(vsPath, users[0].0, name), users[0].1, false);
      if first.Ok? {
        PerUserBuildAllIterable(first.value.0, vsPath, users[1..], name);
      }
    }
  }

  /** Checking front to back agrees with checking every position. */
  lemma {:induction false} AllIterableEach(users: seq<(string, Json)>)
    ensures AllIterable(users) <==> forall i :: 0 <= i < |users| ==> Iterate(users[i].1).Ok?
    decreases |users|
  {
    if users != [] {
      var tail := users[1..];
      AllIterableEach(tail);
      assert forall i :: 1 <= i < |users| ==> users[i] == tail[i - 1];
    }
  }

  /** Adding to the collection at `d` leaves every other collection as it was. */
  lemma AddToChromaKeepsOthers(fs: Fs, d: string, texts: seq<Json>, e: string)
    requires e != d
    ensures Persisted(AddToChroma(fs, d, texts).0, e) == Persisted(fs, e)
  {
  }

  /** Each store holds what was persisted, on `fs`, in the directory of the
      user at the same position, followed by that user's memories. */
  predicate HoldsContents(fs: Fs, stores: seq<(string, Store)>, users: seq<(string, Json)>, vsPath: string, name: string)
    requires |stores| == |users|
  {
    forall i :: 0 <= i < |users| ==>
      Iterate(users[i].1).Ok? &&
      stores[i].1.texts == Persisted(fs, UserDir(vsPath, users[i].0, name)) + Iterate(users[i].1).value
  }

  /** The store at position `i > 0`, after the first user's store is placed
      in front, holds user `i`'s contents when building the first store
      changed no later user's directory. */
  lemma ContentsAfterCons(fs: Fs, fs1: Fs, st: Store, stores: seq<(string, Store)>,
                          users: seq<(string, Json)>, vsPath: string, name: string, i: int)
    requires 1 <= i < |users| && |stores| == |users| - 1
    requires Persisted(fs1, UserDir(vsPath, users[i].0, name)) == Persisted(fs, UserDir(vsPath, users[i].0, name))
    requires HoldsContents(fs1, stores, users[1..], vsPath, name)
    ensures Iterate(users[i].1).Ok?
    ensures ([(users[0].0, st)] + stores)[i].1.texts == Persisted(fs, UserDir(vsPath, users[i].0, name)) + Iterate(users[i].1).value
  {
    assert users[1..][i - 1] == users[i];
  }

  /** Placing the first user's freshly built store in front keeps every store
      holding its user's contents, when building it changed no later user's
      directory. */
  lemma HoldsContentsCons(fs: Fs, fs1: Fs, st: Store, stores: seq<(string, Store)>,
                          users: seq<(string, Json)>, vsPath: string, name: string)
    requires |users| > 0 && |stores| == |users| - 1
    requires Iterate(users[0].1).Ok?
    requires st.texts == Persisted(fs, UserDir(vsPath, users[0].0, name)) + Iterate(users[0].1).value
    requires forall i :: 1 <= i < |users| ==>
      Persisted(fs1, UserDir(vsPath, users[i].0, name)) == Persisted(fs, UserDir(vsPath, users[i].0, name))
    requires HoldsContents(fs1, stores, users[1..], vsPath, name)
    ensures HoldsContents(fs, [(users[0].0, st)] + stores, users, vsPath, name)
  {
    forall i | 1 <= i < |users|
      ensures Iterate(users[i].1).Ok?
      ensures ([(users[0].0, st)] + stores)[i].1.texts == Persisted(fs, UserDir(vsPath, users[i].0, name)) + Iterate(users[i].1).value
    {
      ContentsAfterCons(fs, fs1, st, stores, users, vsPath, name, i);
    }
  }

  /** Dropping the first user keeps the directories distinct. */
  lemma DistinctDirsTail(users: seq<(string, Json)>, vsPath: string, name: string)
    requires users != [] && DistinctDirs(users, vsPath, name)
    ensures DistinctDirs(users[1..], vsPath, name)
    ensures forall i :: 1 <= i < |users| ==> UserDir(vsPath, users[i].0, name) != UserDir(vsPath, users[0].0, name)
  {
    var tail := users[1..];
    forall a, b | 0 <= a < b < |tail|
      ensures UserDir(vsPath, tail[a].0, name) != UserDir(vsPath, tail[b].0, name)
    {
      assert tail[a] == users[a + 1] && tail[b] == users[b + 1];
    }
  }

  /** Building, each user's store holds what was persisted in that user's
      directory followed by the user's memories, when no two users share a
      directory. */
  lemma {:induction false} PerUserBuildContents(fs: Fs, vsPath: string, users: seq<(string, Json)>, name: string)
    requires DistinctDirs(users, vsPath, name)
    ensures var r := PerUserIndexes(fs, vsPath, users, JStr(name), false);
      r.Ok? ==> forall i :: 0 <= i < |users| ==>
        Iterate(users[i].1).Ok? &&
        r.value.1[i].1.texts == Persisted(fs, UserDir(vsPath, users[i].0, name)) + Iterate(users[i].1).value
    decreases |users|
  {
    var r := PerUserIndexes(fs, vsPath, users, JStr(name), false);
    if r.Ok? && users != [] {
      var d := UserDir(vsPath, users[0].0, name);
      PerUserBuildStep(fs, vsPath, users, name);
      var first := UserStore(fs, d, users[0].1, false);
      var texts := Iterate(users[0].1).value;
      var rest := PerUserIndexes(first.value.0, vsPath, users[1..], JStr(name), false);
      DistinctDirsTail(users, vsPath, name);
      PerUserBuildContents(first.value.0, vsPath, users[1..], name);
      assert first.value.0 == AddToChroma(fs, d, texts).0;
      forall i | 1 <= i < |users|
        ensures Persisted(first.value.0, UserDir(vsPath, users[i].0, name)) == Persisted(fs, UserDir(vsPath, users[i].0, name))
      {
        AddToChromaKeepsOthers(fs, d, texts, UserDir(vsPath, users[i].0, name));
      }
      HoldsContentsCons(fs, first.value.0, first.value.1, rest.value.1, users, vsPath, name);
      assert HoldsContents(fs, r.value.1, users, vsPath, name);
    }
  }

  /** Every store persists in the directory of the user at the same position. */
  predicate AtUserDirs(stores: seq<(string, Store)>, users: seq<(string, Json)>, vsPath: string, name: string)
    requires |stores| == |users|
  {
    forall i :: 0 <= i < |users| ==> stores[i].1.location == UserDir(vsPath, users[i].0, name)
  }

  /** Placing the first user's store in front keeps the stores at their users' directories. */
  lemma AtUserDirsCons(st: Store, stores: seq<(string, Store)>, users: seq<(string, Json)>, vsPath: string, name: string)
    requires |users| > 0 && |stores| == |users| - 1
    requires st.location == UserDir(vsPath, users[0].0, name)
    requires AtUserDirs(stores, users[1..], vsPath, name)
    ensures AtUserDirs([(users[0].0, st)] + stores, users, vsPath, name)
  {
    var all := [(users[0].0, st)] + stores;
    forall i | 1 <= i < |users|
      ensures all[i].1.location == UserDir(vsPath, users[i].0, name)
    {
      assert all[i] == stores[i - 1] && users[i] == users[1..][i - 1];
    }
  }

  /** Each user's store persists at `<vectorstore path>/<user>/<db name>`. */
  lemma {:induction false} PerUserLocations(fs: Fs, vsPath: string, users: seq<(string, Json)>, dbName: Json, load: bool)
    ensures var r := PerUserIndexes(fs, vsPath, users, dbName, load);
      r.Ok? && users != [] ==> dbName.JStr? && AtUserDirs(r.value.1, users, vsPath, dbName.s)
    decreases |users|
  {
    var r := PerUserIndexes(fs, vsPath, users, dbName, load);
    if r.Ok? && users != [] {
      var d := UserDir(vsPath, users[0].0, dbName.s);
      var first := UserStore(fs, d, users[0].1, load);
      var rest := PerUserIndexes(first.value.0, vsPath, users[1..], dbName, load);
      if users[1..] != [] {
        PerUserLocations(first.value.0, vsPath, users[1..], dbName, load);
      }
      AtUserDirsCons(first.value.1, rest.value.1, users, vsPath, dbName.s);
    }
  }

  const UnsupportedFormat: string := "Unsupported document format: expected dict or list."

  /** `create_multiuser_vector_indexes(documents, db_name, embedding_model, load)`:
      a dict gives one Chroma store per user, a list one shared store at
      `<vectorstore path>/<db name>`, and anything else is rejected. */
  function CreateMultiuserVectorIndexes(fs: Fs, vsPath: string, documents: Json, dbName: Json, load: bool)
    : (r: Result<(Fs, Indexed)>)
    ensures r == Err(ValueError(UnsupportedFormat)) <==> !documents.JObj? && !documents.JArr?
    ensures r.Ok? && documents.JObj? ==> r.value.1.PerUser? && |r.value.1.stores| == |documents.fields|
    ensures r.Ok? && documents.JObj? ==> forall i :: 0 <= i < |documents.fields| ==>
      r.value.1.stores[i].0 == documents.fields[i].0
    ensures r.Ok? && documents.JArr? ==>
      (dbName.JStr? && r.value.1.Single? && r.value.1.store.location == PathJoin(vsPath, dbName.s))
    ensures documents.JArr? && !load && dbName.JStr? ==>
      (r.Ok? && r.value.1.store.texts == Persisted(fs, PathJoin(vsPath, dbName.s)) + documents.items)
    ensures load && r.Ok? ==> r.value.0 == fs
    ensures documents.JArr? && load && dbName.JStr? ==>
      r == Ok((fs, Single(OpenChroma(fs, PathJoin(vsPath, dbName.s)))))
  {
    match documents
    case JObj(users) =>
      var built :- PerUserIndexes(fs, vsPath, users, dbName, load);
      Ok((built.0, PerUser(built.1)))
    case JArr(items) =>
      var name :- PathPart(dbName);
      var d := PathJoin(vsPath, name);
      if load then Ok((fs, Single(OpenChroma(fs, d))))
      else
        var built := AddToChroma(fs, d, items);
        Ok((built.0, Single(built.1)))
    case _ => Err(ValueError(UnsupportedFormat))
  }

  /** Building from a dict, each user's store holds what was persisted in
      that user's directory followed by the user's memories, when no two
      users share a directory. */
  lemma MultiuserBuildContents(fs: Fs, vsPath: string, users: seq<(string, Json)>, name: string)
    requires DistinctDirs(users, vsPath, name)
    ensures var r := CreateMultiuserVectorIndexes(fs, vsPath, JObj(users), JStr(name), false);
      r.Ok? ==> forall i :: 0 <= i < |users| ==>
        Iterate(users[i].1).Ok? &&
        r.value.1.stores[i].1.texts == Persisted(fs, UserDir(vsPath, users[i].0, name)) + Iterate(users[i].1).value
  {
    PerUserBuildContents(fs, vsPath, users, name);
  }

  /** Building from a dict succeeds exactly when every user's memories can
      be iterated. */
  lemma MultiuserBuildSucceeds(fs: Fs, vsPath: string, users: seq<(string, Json)>, name: string)
    ensures CreateMultiuserVectorIndexes(fs, vsPath, JObj(users), JStr(name), false).Ok?
            <==> forall i :: 0 <= i < |users| ==> Iterate(users[i].1).Ok?
  {
    PerUserBuildSucceeds(fs, vsPath, users, name);
  }

  /** A shared store built from a list is what reopening it returns; the
      list passed when reopening is ignored. */
  lemma SharedBuildThenLoad(fs: Fs, vsPath: string, items: seq<Json>, name: string, again: seq<Json>)
    ensures var built := CreateMultiuserVectorIndexes(fs, vsPath, JArr(items), JStr(name), false);
      && built.Ok?
      && CreateMultiuserVectorIndexes(built.value.0, vsPath, JArr(again), JStr(name), true) == built
  {
  }
}
